=== FILE: README.md ===
# Uptime monitoring and incident escalation — a Dafny model

This project models the core of an uptime-monitoring and incident-escalation
platform. Monitors probe each registered service at its own frequency and
count failures inside a sliding alerting window. When the failures reach the
service's threshold, they open an incident and announce it on an event bus;
when the service recovers, they resolve it. A notification engine reacts to
those events:

- every primary admin of the affected service gets an "Incident detected"
  mail carrying an acknowledgment token;
- each such mail is recorded as a contact attempt;
- an escalation check is scheduled for each primary's mail. If the incident
  is still unacknowledged when the check runs, the secondary admins are
  mailed too;
- on resolution, every admin who was contacted gets an "Incident resolved"
  mail.

A relational store holds services, admins, role links, incidents, contact
attempts and ping failures.

Modules, one per source file:

| module | file | what it holds |
|---|---|---|
| `Wrappers` | `wrappers.dfy` | `Option`, `Result` and `Outcome` |
| `Models` | `models.dfy` | the table rows, their enumerations, defaults and constraints |
| `Messages` | `messages.dfy` | events on the bus, acknowledgment tokens as plain records, mails, and the `Mailer`, whose `Send` answers an arbitrary success flag and logs the mail |
| `Probe` | `probe.dfy` | the probe verdict from an HTTP outcome |
| `Monitoring` | `monitoring.dfy` | the first monitor: an object keeping failure timestamps in a double-ended queue |
| `Collector` | `collector.dfy` | the newer monitor: a pure open/close decision plus a class whose tick writes to the store and the event log |
| `Store` | `store.dfy` | `Database`, a class with one sequence per table; queries are functions over the tables, writes are methods |
| `Escalation` | `escalation.dfy` | the newer notification engine; pending escalation checks are a list of tasks |
| `LegacyEscalation` | `legacy_escalation.dfy` | the older engine: tokens that expire, escalation run inline after a sleep that advances the engine's clock |
| `DummyDb` | `dummy_db.dfy` | the seed-data generator, with every random draw taken as a parameter |
| `Settings`, `AppConfig`, `NotifierConfig` | `settings.dfy`, `app_config.dfy`, `notifier_config.dfy` | required-variable validation and the SMTP defaults over an environment map |
| `Auth` | `auth.dfy` | the local-address test and the authorisation-header rule, with the metadata server's reply as an input |

Time is an integer number of seconds. Each place that reads the wall clock
takes a `now` parameter instead. In the older engine, the clock is a field
that only its sleep advances.

## Model

| member | source | states |
|---|---|---|
| Models.ParseStatus | utils/models.py:84-93 | only the three names `registered`, `acknowledged` and `resolved` are statuses, each read back as exactly its own status |
| Models.ParseRole | utils/models.py:59-63 | a role is `primary` or `secondary`; any other text is refused |
| Models.NewService | utils/models.py:10-23 | the given fields are kept; the failure threshold defaults to 3 and the next-check time to 60 seconds after load time |
| Models.NewIncident | utils/models.py:69-93 | a new incident is `registered` and has no end time |
| Messages.KindOfTag | notification_module/notification_engine.py:38-45 | the event tag maps to the creation kind exactly for `CREATE_INCIDENT`, to the resolution kind exactly for `RESOLVE_INCIDENT`, and reads back as the same tag |
| Messages.Mailer.Send | notification_module/notification_engine.py:75-79 | exactly one mail is logged, with its addressee, subject, body and the success flag returned |
| Probe.CheckThreshold | monitoring_module/collector.py:39-45 | a response passes exactly when its status is below 400 (200 passes; 400 and 500 fail); a request error fails |
| Monitoring.Cleaned | monitoring_module/monitoring.py:71-74 | cleanup keeps a suffix of the queue: everything dropped is older than the window and a non-empty survivor starts inside it |
| Monitoring.Fresh | monitoring_module/monitoring.py:71-74 | the reference filter: exactly the timestamps within the window ending at `now`, in order |
| Monitoring.CleanedIsFresh | monitoring_module/monitoring.py:71-74 | on a non-decreasing queue, cleanup leaves exactly the failures inside the window |
| Monitoring.FreshLater | monitoring_module/monitoring.py:71-74 | filtering at an earlier time and then a later one equals filtering at the later one |
| Monitoring.FreshAppend | monitoring_module/monitoring.py:71-74 | filtering distributes over concatenation, so order is kept |
| Monitoring.FreshOfSorted | monitoring_module/monitoring.py:71-74 | filtering keeps a non-decreasing queue non-decreasing |
| Monitoring.RecordKeepsWindow | monitoring_module/monitoring.py:65-74 | after a recording, the queue is non-decreasing and every entry is at most the window old |
| Monitoring.ReplayIsFresh | monitoring_module/monitoring.py:65-74 | after failures recorded in time order, the queue holds exactly those inside the window ending at the last one |
| Monitoring.ReplayIsFreshAll | monitoring_module/monitoring.py:65-74 | for every time-ordered run of failures, the queue left behind is the window filter at the last one |
| Monitoring.IpStatusCollector.ShouldTriggerIncident | monitoring_module/monitoring.py:76-77 | on a queue left by failures recorded in time order, the trigger fires exactly when at least the threshold of them lie in the window ending at the latest |
| Monitoring.IpStatusCollector.constructor | monitoring_module/monitoring.py:28-52 | the window in seconds is pings times frequency; no failures and nothing published yet |
| Monitoring.IpStatusCollector.RecordFailure | monitoring_module/monitoring.py:65-69 | the queue becomes the cleanup of the old queue plus `now`, and `now` is its last entry |
| Monitoring.IpStatusCollector.CleanupOldFailures | monitoring_module/monitoring.py:71-74 | the popping loop leaves exactly `Cleaned` of the old queue |
| Monitoring.IpStatusCollector.PublishIncident | monitoring_module/monitoring.py:79-90 | exactly one create-incident job for the address, stamped `now` and `registered`, is appended |
| Monitoring.IpStatusCollector.RunOnce | monitoring_module/monitoring.py:99-111 | a passing probe changes nothing; a failing one records `now` and publishes one job exactly when the queue length reaches the threshold |
| Collector.Decide | monitoring_module/collector.py:30-35 | open exactly when triggered with no open incident; close (that incident) exactly when not triggered with one open; otherwise nothing |
| Collector.Apply | monitoring_module/collector.py:30-35 | nothing changes on keep; opening appends one registered incident of the service, started at `now`, with no end time and an id no row uses; closing resolves exactly the open row with the id, ended at `now`, and keeps every other row |
| Collector.Announce | monitoring_module/collector.py:85-109 | no message on keep; one create-incident message with the new incident's id on open; one resolve-incident message with the closed id on close; each names the service and is stamped `now` |
| Collector.RecentFailuresAppend | monitoring_module/collector.py:54-60 | the recent-failure query distributes over concatenation of the failure table |
| Collector.RecentRowsSnoc | monitoring_module/collector.py:54-60 | one more failure row adds its position to the recent positions exactly when it belongs to the service and lies inside the window |
| Collector.RecentFailuresCount | monitoring_module/collector.py:54-60 | the query returns exactly one row per stored failure inside the window |
| Collector.IpStatusCollector.ShouldTriggerIncident | monitoring_module/collector.py:54-60 | fires exactly when the service has at least its threshold of stored failures at most a window old at `now` |
| Collector.OpenKeepsSingleOpen | monitoring_module/collector.py:30-32 | opening when none is open keeps at most one open incident per service |
| Collector.CloseKeepsSingleOpen | monitoring_module/collector.py:34-35 | resolving the open incident keeps the store valid and the per-service bound |
| Collector.StillOpenUntouched | monitoring_module/collector.py:34-35 | after resolving one open incident, every row still open is unchanged and is a different row |
| Collector.ResolvedKeepsPairs | monitoring_module/collector.py:34-35 | resolving an open incident keeps at most one open incident per service |
| Collector.ResolvedLeavesNoneOpen | monitoring_module/collector.py:34-35 | resolving a service's open incident leaves that service with none open |
| Collector.SingleOpenAt | monitoring_module/collector.py:29-35 | two different rows of one service are never both open, in either order |
| Collector.TickKeepsSingleOpen | monitoring_module/collector.py:21-35 | a tick keeps the store invariants and at most one open incident per service; afterwards an incident is open exactly when the trigger holds |
| Collector.IpStatusCollector.constructor | monitoring_module/collector.py:10-19 | the window in seconds is pings times frequency |
| Collector.IpStatusCollector.RunOnce | monitoring_module/collector.py:21-35 | a failure row is added exactly when the probe failed, before the trigger is read; incidents and announcements follow `Decide` on the trigger and the open incident |
| Store.GetIncident | database/db.py:46-56 | the row with the id, or none exactly when no row has it |
| Store.GetIncidentUnique | database/db.py:46-56 | with unique ids, the lookup returns the one row carrying the id |
| Store.GetAdmins | database/db.py:58-73 | an admin is returned exactly when a role link joins it to the service with the role |
| Store.GetAdminsByIncident | database/db.py:75-91 | an admin is returned exactly when it has the role on the service of an incident with the id; an unknown incident gives none |
| Store.AdminsByIncidentOfService | database/db.py:75-91 | with unique incident ids, the admins of an incident are exactly those of its service |
| Store.GetServiceByIncident | database/db.py:93-111 | the name of the incident's service, or none exactly when the join is empty |
| Store.IsIncidentAcknowledged | database/db.py:136-146 | true only for an existing incident with status `acknowledged`; false for a missing one |
| Store.AcknowledgedIffStatus | database/db.py:136-146 | with unique ids, acknowledged exactly when the row's status is `acknowledged` |
| Store.GetNotifiedAdmins | database/db.py:148-163 | each admin with at least one attempt for the incident, no duplicates |
| Store.Distinct | database/db.py:155 | same members as the input, no duplicates |
| Store.RecentFailures | monitoring_module/collector.py:54-60 | exactly the service's failures at most the window old at `now` |
| Store.OpenIncidentOf | monitoring_module/collector.py:64-69 | a registered or acknowledged incident of the service, or none exactly when it has none |
| Store.MaxIncidentId | utils/models.py:72 | an upper bound of every incident id in use |
| Store.Reassign | database/db.py:219-226 | only the links matching (service, role) get the new admin; every other row stays |
| Store.LinkKeysDistinct | utils/models.py:55-60 | the executable key test agrees with the primary-key invariant: no two links share a (service, admin) pair |
| Store.LinkKeysCons | utils/models.py:55-60 | a table headed by a link is key-unique exactly when its rest is and no later row repeats the head's key |
| Store.LinkClash | utils/models.py:55-60 | two different rows with the same (service, admin) pair break the key |
| Store.ReassignConflict | database/db.py:219-226 | on a key-unique table, the reassignment breaks the key exactly when two links match (service, role) or a non-matching link of the service already has the new admin |
| Store.ConflictHasCause | database/db.py:219-226 | a broken key after reassignment comes from two matching links or from a link already holding the new admin |
| Store.CauseMakesConflict | database/db.py:219-226 | either cause breaks the key after reassignment |
| Store.ReassignOntoSecondaryConflicts | database/db.py:219-226 | making a service's secondary its primary as well is refused by the key: the two-row table is unique before and not after |
| Store.LinksExceptKeepsKeys | database/db.py:199-202 | deleting the links of a service keeps the key unique |
| Store.IncidentsCons | utils/models.py:69-93 | an incident table headed by a row is valid exactly when its rest is, the head's end time matches its status and no later row reuses its id |
| Store.IncidentsExceptKeepsValid | utils/models.py:25-35 | deleting a service's incidents keeps ids unique and end times matching statuses |
| Store.UpdateContactRows | database/db.py:242-266 | only the given fields of the admin with the id change |
| Store.ResolveRows | monitoring_module/collector.py:77-82 | only open rows with the id become resolved with end time `at` |
| Store.AcknowledgeRows | tests/test_notifications.py:34-48 | only registered rows with the id become acknowledged |
| Store.LatestAttempt | tests/test_notifications.py:79-92 | the admin's attempt for the incident that comes last in table order (not the one with the latest `attempted_at`), or none when it has none; the test asserts that after redemption an attempt for the pair exists and is acknowledged |
| Store.MarkLatestAttempt | tests/test_notifications.py:79-92 | the attempt last in table order for the admin and incident becomes acknowledged with a response time; every other row stays; the test asserts that the attempt it reads back for the pair is acknowledged with a response time |
| Store.AckOutcome | tests/test_notifications.py:34-77 | an invalid token and an expired token each get their own rejection; success exactly for an existing registered incident; "already acknowledged" exactly for an existing acknowledged one; "already resolved" exactly for an existing resolved one; "not found" exactly when no incident has the token's id |
| Store.GetIncidentAfterAck | tests/test_notifications.py:34-48 | after acknowledging, the lookup finds the incident acknowledged |
| Store.AckIdempotent | tests/test_notifications.py:50-57 | redeeming the same token twice answers "already acknowledged" the second time |
| Store.CreateKeepsValid | utils/models.py:72-93 | a new incident takes a fresh id and keeps the end-time-iff-resolved invariant |
| Store.TransitionsKeepValid | utils/models.py:82-93 | resolving and acknowledging keep the invariants and only move statuses forward |
| Store.Database.constructor | database/db.py:33-39 | the store starts with the given tables, which must meet the schema's invariants, so it starts valid |
| Store.Database.InsertContactAttempt | database/db.py:114-134 | exactly one row with the given fields is appended; other tables unchanged |
| Store.Database.DeleteService | database/db.py:184-205 | a missing id answers false and changes nothing; otherwise the service and its links go and the answer is true; the store invariants, the link key included, are kept |
| Store.Database.DeleteServiceCascade | utils/models.py:25-35 | the service, its links, its incidents and their attempts are removed; the store invariants are kept |
| Store.Database.UpdateServiceAdmin | database/db.py:207-229 | the update fails with the unique-constraint error, leaving the links unchanged, exactly when `Reassign` would repeat a (service, admin) key; otherwise links are reassigned per `Reassign` and the answer is true exactly when a link matched; the link key is kept either way |
| Store.Database.UpdateAdminContact | database/db.py:231-269 | with neither field given: false, nothing changes; else only the given fields change, true exactly when the admin exists |
| Store.Database.RecordPingFailure | monitoring_module/collector.py:49-52 | one failure row for the service at `now` is appended |
| Store.Database.CreateIncident | monitoring_module/collector.py:71-75 | a registered incident with a fresh id is appended; invariants kept |
| Store.Database.ResolveIncident | monitoring_module/collector.py:77-82 | the incident is resolved per `ResolveRows`; invariants kept |
| Store.Database.Acknowledge | tests/test_notifications.py:34-92 | reply per `AckOutcome`; on success the incident and its latest attempt are acknowledged, otherwise nothing changes |
| Store.IncidentIdsOf | utils/models.py:96-100 | exactly the ids of the service's incidents |
| Escalation.AttemptFor | notification_module/notification_engine.py:81-86 | channel `email`, no response; result `sent` exactly when the mail went out, else `failed` |
| Escalation.TokenFor | notification_module/notification_engine.py:91-100 | the token holds exactly the incident and the admin, with no expiry |
| Escalation.ServiceLabel | notification_module/notification_engine.py:70-71 | a space and the name for a non-empty name, nothing otherwise |
| Escalation.NotifiedAreRecorded | notification_module/notification_engine.py:81-86 | every admin notified is afterwards among the notified admins of the incident |
| Escalation.NotificationEngine.constructor | notification_module/notification_engine.py:29-36 | no checks pending |
| Escalation.NotificationEngine.NotifyAdmin | notification_module/notification_engine.py:60-89 | one mail, one attempt matching its result, and one pending check exactly when it is not an escalation |
| Escalation.NotificationEngine.ScheduleEscalation | notification_module/notification_engine.py:102-126 | one check for the incident, due after the delay, is appended |
| Escalation.NotificationEngine.NotifyEach | notification_module/notification_engine.py:57-58 | each listed admin notified once, in order; checks appended only for first notifications |
| Escalation.NotifyStep | notification_module/notification_engine.py:57-58 | one more admin notified extends the mails and attempts by exactly that admin's mail and row |
| Escalation.ResolutionStep | notification_module/notification_engine.py:152-155 | one more resolution mail extends the outbox by exactly that admin's mail |
| Escalation.NotificationEngine.HandleIncidentCreated | notification_module/notification_engine.py:47-58 | each primary admin mailed once in order, with one attempt and one pending check each |
| Escalation.NotificationEngine.HandleEscalationCheck | notification_module/notification_engine.py:129-141 | nothing once acknowledged; otherwise each secondary notified once; never a new check |
| Escalation.NotificationEngine.HandleIncidentResolved | notification_module/notification_engine.py:143-155 | one "Incident resolved" mail per notified admin; no attempts, no checks |
| Escalation.NotificationEngine.HandleEvent | notification_module/notification_engine.py:38-45 | creation and resolution events have their handlers' effects; any other event changes nothing |
| LegacyEscalation.Round | notification_module/notifications.py:89-94 | one notice per admin, in order, at the same time |
| LegacyEscalation.ExpiringToken | notification_module/notifications.py:70-76 | the token holds the incident, the admin and an expiry 15 minutes after issue |
| LegacyEscalation.PlanNotices | notification_module/notifications.py:28-33 | an admin is mailed once per primary listing, plus once per secondary listing for each primary unless acknowledged |
| LegacyEscalation.PlanLength | notification_module/notifications.py:28-33 | k primaries produce k notices, plus k times the secondaries unless acknowledged |
| LegacyEscalation.PlanGrows | notification_module/notifications.py:28-33 | one more primary adds its own notice and, unless acknowledged, a round of the secondaries one delay later |
| LegacyEscalation.PlanStep | notification_module/notifications.py:28-33 | the logs for the first k primaries, followed by the logs of primary k and its check, are the logs for k + 1 primaries |
| LegacyEscalation.NoticesToRound | notification_module/notifications.py:89-94 | a round reaches each admin as often as the admin is listed |
| LegacyEscalation.NotificationEngine.constructor | notification_module/notifications.py:11-13 | the engine starts at the given clock reading |
| LegacyEscalation.NotificationEngine.NotifyAdmin | notification_module/notifications.py:35-68 | one mail and one matching attempt; a first notification runs its check inline, one delay later |
| LegacyEscalation.NotificationEngine.ScheduleEscalation | notification_module/notifications.py:78-94 | after the delay: nothing once acknowledged, otherwise each secondary notified as an escalation |
| LegacyEscalation.NotificationEngine.NotifyPrimaries | notification_module/notifications.py:28-33 | the primaries notified in order: mails and attempts exactly those of `Plan`, the clock one delay further per primary |
| LegacyEscalation.NotificationEngine.NotifyNext | notification_module/notifications.py:28-33 | one turn of the loop: the logs grow from the plan for k primaries to the plan for k + 1, one delay later |
| LegacyEscalation.NotificationEngine.HandleIncidentCreated | notification_module/notifications.py:21-33 | a missing incident raises and changes nothing; otherwise the mails and attempts are exactly those of `Plan` for that service's admins |
| LegacyEscalation.NotificationEngine.HandleIncidentResolved | notification_module/notifications.py:96-104 | one "Incident resolved" mail per notified admin |
| LegacyEscalation.NotificationEngine.HandleEvent | notification_module/notifications.py:15-19 | only creation and resolution events act; any other event changes nothing |
| DummyDb.GenerateServices | utils/dummy_db.py:17-34 | ids 1..n in order; frequencies and windows from their fixed choice lists |
| DummyDb.GenerateAdmins | utils/dummy_db.py:37-66 | ids 1..n; the contact value is the e-mail or the phone, as the drawn type says |
| DummyDb.GenerateServiceAdmins | utils/dummy_db.py:69-98 | an error exactly when there are not twice as many admins as services; otherwise row 2i is service i's primary and 2i+1 its secondary |
| DummyDb.AssignmentPerService | utils/dummy_db.py:85-96 | every service gets a primary and a secondary link |
| DummyDb.AssignmentUsesEachAdminOnce | utils/dummy_db.py:86-96 | the admin column is exactly the admin list, so each position is used once |
| DummyDb.GenerateIncidents | utils/dummy_db.py:101-133 | ids 1..n; an end time exactly when resolved, 5 to 300 whole minutes after the start |
| DummyDb.GeneratedIncidentsValid | utils/dummy_db.py:118-132 | generated incidents satisfy the store invariants |
| Settings.MissingNames | config.py:20-28 | never more missing names than names checked |
| Settings.MissingNamesMembers | config.py:20-28 | a name is reported exactly when it is checked and its variable is unset or empty |
| Settings.MissingNamesAppend | config.py:20-28 | the missing names keep the fixed order |
| Settings.Join | config.py:32 | the joined text is the parts' lengths plus one separator between each pair, and starts with the first part |
| Settings.CheckRequired | config.py:30-33 | pass exactly when every name is present; otherwise the message names the missing ones, joined by ", " |
| Settings.ParseDecimal | config.py:9 | a value is read exactly for a non-empty run of digits, optionally after one `+` or `-`; it is the digits' decimal value, negated after `-` |
| Settings.ParseFormat | config.py:9 | the integer parser reads back every formatted integer |
| Settings.LoadSmtp | config.py:7-12 | port 587 when unset, otherwise the parsed value or an error; sender is the username when `SMTP_FROM` is unset (the notification service's copy, notification_module/config.py:5-10, reads the same variables with the same defaults) |
| AppConfig.Validate | config.py:19-33 | fails exactly when one of the four variables (including the token secret) is unset or empty |
| AppConfig.OnlySecretMissing | config.py:25-32 | with only the secret missing, the message names just it |
| NotifierConfig.Validate | notification_module/config.py:13-26 | fails exactly when one of the three SMTP variables is unset or empty |
| NotifierConfig.SecretIgnored | notification_module/config.py:14-21 | the token secret does not affect the verdict or the message |
| Auth.Contains | utils/auth.py:12 | substring test: true exactly when the needle occurs at some position |
| Auth.IsLocal | utils/auth.py:8-12 | local exactly when the address contains `localhost`, `127.0.0.1` or `0.0.0.0` |
| Auth.Strip | utils/auth.py:27 | cuts only white space from the ends; a non-empty result has none at either end |
| Auth.StripIdempotent | utils/auth.py:27 | stripping twice equals stripping once |
| Auth.GetHeaders | utils/auth.py:15-54 | local gives no headers; a 200 reply gives the one bearer header with the stripped token; anything else gives none (the synchronous and the asynchronous variant follow the same rule) |
| Auth.LocalIgnoresReply | utils/auth.py:16-17 | for a local audience the reply is never consulted |
| Auth.PaddedTokenSameHeader | utils/auth.py:26-27 | surrounding white space on the served token does not reach the header |

## Left out

- The network and its clients are not modelled: HTTP probing, the REST API client, Pub/Sub, Cloud Tasks, SMTP and the metadata server. Probe results, mail success, metadata replies and fresh ids are inputs, or arbitrary values chosen by the model.
- JWT signing and verification are not modelled. A token is a record of incident, admin and optional expiry. The acknowledgment endpoint's decoding arrives already decided as `Store.TokenCheck`.
- Floating-point wall-clock time becomes integer seconds passed in as `now`. The older engine's `time.sleep` becomes advancing its `clock` field.
- Concurrency (the asyncio polling loop, `asyncio.gather`) and the monitoring engine that schedules collectors are not part of this model.
- `LegacyEscalation.NotificationEngine.ScheduleEscalation`: the older engine's check reads the acknowledgment after its `time.sleep`, while the acknowledgment endpoint may write the store during that sleep. The model holds the acknowledgment fixed for the whole creation event, so an acknowledgment that arrives between two primaries' checks is not represented.
- `LegacyEscalation.PlanNotices`: for the same reason, the plan covers only "never acknowledged" and "acknowledged before the event". The source also allows the secondaries to be mailed for only the first few primaries' checks, from none up to one round per primary.
- `Store.MarkLatestAttempt`: when the admin has no attempt for the incident, redemption records nothing. The redemption test (tests/test_notifications.py:79-92) expects a row to exist, but no fixture it uses creates one. When the pair has several attempts, the model marks the last in table order, while the test reads back the first with `.first()`.
- `Models.ParseRole`: the role is a two-valued datatype, so a link row with any other role text cannot be stored. In the source, role queries with such text simply match nothing (an empty list, or false).
- SQL row order is taken to be table order where the queries leave it open.
- The monitoring API endpoints (recent failures, open incidents, create, resolve) are modelled directly as store operations.
- The newer collector hard-codes its publisher to `None`, so publishing would fail. The model publishes to its event log, as intended.
- The first monitor calls a `_resolve_incident` it never defines. That branch cannot run, because `_check_existing_incident` always returns none, and the model keeps it unreachable in the same way.
- The newer engine reads an escalation delay from a configuration class that does not define it. The delay is a constructor parameter here.
- The newer engine's constructor signature differs from the one its test uses. The model follows the intended roles of its arguments.
- `LegacyEscalation.NotificationEngine.HandleIncidentCreated`: when the incident does not exist, the source crashes with a type error inside the store lookup. The model reports this as `raised` and does nothing.
- The mail bodies are not modelled as text: the acknowledgment link and its wording are summarised by the `Body` datatype.
- The debug `print` lines and the printed task names are not modelled.
- Admin deletion and its cascade to contact attempts are not modelled; no operation in this model deletes admins.
- The seed generator's faker and random draws are parameters. `generate_contact_attempts`, `save_dfs_to_sqlite` and the command-line entry are not part of this model.
- `Settings.ParseDecimal`: accepts an optional sign and ASCII digits only. Python's `int()` also allows surrounding white space, underscores between digits and non-ASCII digits; those spellings are rejected here. The error text quotes the value without Python's `repr` escaping.
- The service-name caption of the older engine's mail is empty, as in its source; its body states the 15-minute lifetime instead.
- `.env` loading is not modelled: the environment map is whatever the process sees after it.
- `Escalation.NotificationEngine.NotifyAdmin`: the model reads an admin as a record with an id and a contact value. In the source, the API client returns admins as JSON dictionaries (notification_module/api_client.py:12-16 and 36-39), so the attribute reads at notification_module/notification_engine.py:65-84 would raise `AttributeError`. The model follows the evidently intended field access.
- `Escalation.NotificationEngine.HandleIncidentResolved`: the same mismatch. The notified admins arrive as dictionaries (notification_module/api_client.py:36-39), so the reads of `admin.contact_value` at notification_module/notification_engine.py:152-155 would raise. The model mails each admin's contact value as intended.

=== FILE: app_config.dfy ===
/** The configuration of the main application: SMTP settings plus the token secret, all required. */
module AppConfig {
  import opened Wrappers
  import opened Settings

  const REQUIRED: seq<string> := ["SMTP_HOST", "SMTP_USERNAME", "SMTP_PASSWORD", "JWT_SECRET"]

  /** `validate`: fails exactly when one of the four variables is unset or empty, naming the missing ones in this order. */
  function Validate(env: Env): (r: Outcome<string>)
    ensures r.Pass? <==> Present(env, "SMTP_HOST") && Present(env, "SMTP_USERNAME")
                         && Present(env, "SMTP_PASSWORD") && Present(env, "JWT_SECRET")
    ensures r.Fail? ==> r.error == MISSING_PREFIX + Join(MissingNames(REQUIRED, env), ", ")
  {
    CheckRequired(REQUIRED, env)
  }

  /** With only the secret missing, the message names just the secret. */
  lemma OnlySecretMissing(env: Env)
    requires Present(env, "SMTP_HOST") && Present(env, "SMTP_USERNAME") && Present(env, "SMTP_PASSWORD")
    requires !Present(env, "JWT_SECRET")
    ensures Validate(env) == Fail("Missing required environment variables: JWT_SECRET")
  {
    assert REQUIRED == ["SMTP_HOST"] + (["SMTP_USERNAME"] + (["SMTP_PASSWORD"] + ["JWT_SECRET"]));
    MissingNamesAppend(["SMTP_HOST"], ["SMTP_USERNAME"] + (["SMTP_PASSWORD"] + ["JWT_SECRET"]), env);
    MissingNamesAppend(["SMTP_USERNAME"], ["SMTP_PASSWORD"] + ["JWT_SECRET"], env);
    MissingNamesAppend(["SMTP_PASSWORD"], ["JWT_SECRET"], env);
    assert MissingNames(["SMTP_HOST"], env) == [] && MissingNames(["SMTP_USERNAME"], env) == [];
    assert MissingNames(["SMTP_PASSWORD"], env) == [] && MissingNames(["JWT_SECRET"], env) == ["JWT_SECRET"];
    assert MissingNames(REQUIRED, env) == ["JWT_SECRET"];
    assert Join(["JWT_SECRET"], ", ") == "JWT_SECRET";
    assert MISSING_PREFIX + "JWT_SECRET" == "Missing required environment variables: JWT_SECRET";
  }
}

=== FILE: auth.dfy ===
/**
 * Service-to-service authorisation headers. Outside a local deployment the
 * identity token is fetched from the cloud metadata server; its reply is an
 * input here.
 */
module Auth {
  /** `needle` occurs in `s` starting at position `i`. */
  ghost predicate OccursAt(s: string, needle: string, i: int)
  {
    0 <= i && i + |needle| <= |s| && s[i..i + |needle|] == needle
  }

  /** Python's `needle in s` for strings. */
  function Contains(s: string, needle: string): (r: bool)
    ensures r <==> exists i :: OccursAt(s, needle, i)
    decreases |s|
  {
    if |s| < |needle| then false
    else if s[..|needle|] == needle then
      assert OccursAt(s, needle, 0);
      true
    else
      var r := Contains(s[1..], needle);
      ShiftOccurrence(s, needle);
      r
  }

  /** Away from position 0, the occurrences in `s` are those of `s[1..]`, shifted by one. */
  lemma ShiftOccurrence(s: string, needle: string)
    requires |s| >= |needle| && s[..|needle|] != needle
    ensures (exists i :: OccursAt(s, needle, i)) <==> (exists i :: OccursAt(s[1..], needle, i))
  {
    if exists i :: OccursAt(s, needle, i) {
      var i :| OccursAt(s, needle, i);
      assert i != 0;
      assert s[1..][i - 1..i - 1 + |needle|] == s[i..i + |needle|];
      assert OccursAt(s[1..], needle, i - 1);
    }
    if exists i :: OccursAt(s[1..], needle, i) {
      var i :| OccursAt(s[1..], needle, i);
      assert s[1..][i..i + |needle|] == s[i + 1..i + 1 + |needle|];
      assert OccursAt(s, needle, i + 1);
    }
  }

  /** `_is_local`: the address names the loopback host, the loopback address or the wildcard address. */
  function IsLocal(url: string): (r: bool)
    ensures r <==> ((exists i :: OccursAt(url, "localhost", i))
                    || (exists i :: OccursAt(url, "127.0.0.1", i))
                    || (exists i :: OccursAt(url, "0.0.0.0", i)))
  {
    Contains(url, "localhost") || Contains(url, "127.0.0.1") || Contains(url, "0.0.0.0")
  }

  /** The characters Python's `str.strip()` removes by default (Unicode white space). */
  predicate IsSpace(c: char)
  {
    var n := c as int;
    9 <= n <= 13 || 28 <= n <= 32 || n == 0x85 || n == 0xA0 || n == 0x1680
    || 0x2000 <= n <= 0x200A || n == 0x2028 || n == 0x2029 || n == 0x202F || n == 0x205F || n == 0x3000
  }

  /** The number of white-space characters at the front of `s`. */
  function Leading(s: string): (n: nat)
    ensures n <= |s|
    ensures forall k :: 0 <= k < n ==> IsSpace(s[k])
    ensures n < |s| ==> !IsSpace(s[n])
  {
    if s == [] || !IsSpace(s[0]) then 0 else 1 + Leading(s[1..])
  }

  /** The number of white-space characters at the back of `s`. */
  function Trailing(s: string): (n: nat)
    ensures n <= |s|
    ensures forall k :: |s| - n <= k < |s| ==> IsSpace(s[k])
    ensures n < |s| ==> !IsSpace(s[|s| - 1 - n])
  {
    if s == [] || !IsSpace(s[|s| - 1]) then 0 else 1 + Trailing(s[..|s| - 1])
  }

  /** `r` is `s[a..]` cut short, and everything around it in `s` is white space. */
  ghost predicate CutFrom(s: string, r: string, a: int)
  {
    0 <= a <= |s| - |r| && s[a..a + |r|] == r
    && (forall k :: 0 <= k < a ==> IsSpace(s[k]))
    && (forall k :: a + |r| <= k < |s| ==> IsSpace(s[k]))
  }

  /**
   * `str.strip()`: the result is a contiguous piece of `s`, everything cut
   * off is white space, and a non-empty result starts and ends with a
   * non-space character.
   */
  function Strip(s: string): (r: string)
    ensures r == [] <==> forall k :: 0 <= k < |s| ==> IsSpace(s[k])
    ensures r != [] ==> !IsSpace(r[0]) && !IsSpace(r[|r| - 1])
    ensures exists a :: CutFrom(s, r, a)
  {
    var lead := Leading(s);
    if lead == |s| then
      assert CutFrom(s, [], 0);
      []
    else
      var trail := Trailing(s);
      assert lead < |s| - trail;
      var r := s[lead..|s| - trail];
      assert r[0] == s[lead] && r[|r| - 1] == s[|s| - 1 - trail];
      assert !IsSpace(s[lead]);
      assert CutFrom(s, r, lead);
      r
  }

  /** A string without white space at either end is left as it is. */
  lemma StripTrimmed(s: string)
    requires s != [] ==> !IsSpace(s[0]) && !IsSpace(s[|s| - 1])
    ensures Strip(s) == s
  {
    if s != [] {
      assert Leading(s) == 0 && Trailing(s) == 0;
      assert s[0..|s|] == s;
    }
  }

  /** Stripping twice is stripping once. */
  lemma StripIdempotent(s: string)
    ensures Strip(Strip(s)) == Strip(s)
  {
    StripTrimmed(Strip(s));
  }

  /** The metadata server's reply to the identity-token request, or a failure to get one. */
  datatype MetadataReply = Reply(statusCode: int, text: string) | Unreachable

  const AUTHORIZATION := "Authorization"
  const BEARER := "Bearer "

  /**
   * `get_headers` and `get_headers_async`: a local audience needs no token;
   * otherwise a 200 reply yields the one bearer header with the stripped
   * token and any other reply or failure yields no headers.
   */
  function GetHeaders(audience: string, reply: MetadataReply): (h: map<string, string>)
    ensures IsLocal(audience) ==> h == map[]
    ensures !IsLocal(audience) ==> (h != map[] <==> reply.Reply? && reply.statusCode == 200)
    ensures h != map[] ==> reply.Reply? && h.Keys == {AUTHORIZATION} && h[AUTHORIZATION] == BEARER + Strip(reply.text)
  {
    if IsLocal(audience) then map[]
    else match reply
      case Reply(code, text) =>
        if code == 200 then
          var h := map[AUTHORIZATION := BEARER + Strip(text)];
          assert AUTHORIZATION in h;
          h
        else map[]
      case Unreachable => map[]
  }

  /** For a local audience the metadata reply is never consulted. */
  lemma LocalIgnoresReply(audience: string, r1: MetadataReply, r2: MetadataReply)
    requires IsLocal(audience)
    ensures GetHeaders(audience, r1) == GetHeaders(audience, r2) == map[]
  {
  }

  /** White space around a trimmed token is exactly what stripping removes. */
  lemma StripPadded(pad1: string, token: string, pad2: string)
    requires token != [] && !IsSpace(token[0]) && !IsSpace(token[|token| - 1])
    requires forall k :: 0 <= k < |pad1| ==> IsSpace(pad1[k])
    requires forall k :: 0 <= k < |pad2| ==> IsSpace(pad2[k])
    ensures Strip(pad1 + token + pad2) == token
  {
    var s := pad1 + token + pad2;
    assert s == pad1 + (token + pad2);
    LeadingOver(pad1, token + pad2);
    TrailingOver(pad1 + token, pad2);
    assert s[|pad1|..|s| - |pad2|] == token;
  }

  /** The token as served and the same token with surrounding white space give the same header. */
  lemma PaddedTokenSameHeader(audience: string, token: string, pad1: string, pad2: string)
    requires !IsLocal(audience)
    requires token != [] && !IsSpace(token[0]) && !IsSpace(token[|token| - 1])
    requires forall k :: 0 <= k < |pad1| ==> IsSpace(pad1[k])
    requires forall k :: 0 <= k < |pad2| ==> IsSpace(pad2[k])
    ensures GetHeaders(audience, Reply(200, pad1 + token + pad2)) == map[AUTHORIZATION := BEARER + token]
  {
    StripPadded(pad1, token, pad2);
  }

  lemma {:induction false} LeadingOver(pad: string, rest: string)
    requires forall k :: 0 <= k < |pad| ==> IsSpace(pad[k])
    requires rest != [] && !IsSpace(rest[0])
    ensures Leading(pad + rest) == |pad|
  {
    if pad != [] {
      assert (pad + rest)[1..] == pad[1..] + rest;
      LeadingOver(pad[1..], rest);
    } else {
      assert pad + rest == rest;
    }
  }

  lemma {:induction false} TrailingOver(rest: string, pad: string)
    requires forall k :: 0 <= k < |pad| ==> IsSpace(pad[k])
    requires rest != [] && !IsSpace(rest[|rest| - 1])
    ensures Trailing(rest + pad) == |pad|
  {
    if pad != [] {
      assert (rest + pad)[..|rest + pad| - 1] == rest + pad[..|pad| - 1];
      TrailingOver(rest, pad[..|pad| - 1]);
    } else {
      assert rest + pad == rest;
    }
  }
}

=== FILE: collector.dfy ===
/**
 * The newer monitor variant: failures, incidents and the open-incident
 * lookup live in the store; each tick probes, records a failure when the
 * probe failed, and then opens or closes the service's incident.
 */
module Collector {
  import opened Wrappers
  import opened Models
  import opened Messages
  import opened Probe
  import opened Store

  /** What a tick does to the incident table once the failure is recorded. */
  datatype Action = Open | Close(incidentId: int) | Keep

  /** The create/resolve decision: open only when triggered with nothing open, close only when recovered with one open. */
  function Decide(shouldTrigger: bool, open: Option<Incident>): (a: Action)
    ensures a == Open <==> shouldTrigger && open.None?
    ensures a.Close? <==> !shouldTrigger && open.Some?
    ensures a.Close? ==> a.incidentId == open.value.id
    ensures a == Keep <==> (shouldTrigger == open.Some?)
  {
    if shouldTrigger && open.None? then Open
    else if !shouldTrigger && open.Some? then Close(open.value.id)
    else Keep
  }

  /** The incident table after the action, at time `now`. */
  function Apply(incidents: seq<Incident>, serviceId: int, action: Action, now: int): (r: seq<Incident>)
    ensures action == Keep ==> r == incidents
    ensures action == Open ==>
      && |r| == |incidents| + 1 && r[..|incidents|] == incidents
      && r[|incidents|].serviceId == serviceId && r[|incidents|].startedAt == now
      && r[|incidents|].status == Registered && r[|incidents|].endedAt.None?
      && forall i :: i in incidents ==> i.id != r[|incidents|].id
    ensures action.Close? ==>
      && |r| == |incidents|
      && forall k :: 0 <= k < |incidents| ==>
           || r[k] == incidents[k]
           || (incidents[k].id == action.incidentId && IsOpen(incidents[k])
               && r[k] == incidents[k].(status := Resolved, endedAt := Some(now)))
  {
    match action
    case Open => incidents + [NewIncident(MaxIncidentId(incidents) + 1, serviceId, now)]
    case Close(id) => ResolveRows(incidents, id, now)
    case Keep => incidents
  }

  /** The message published for the action. */
  function Announce(incidents: seq<Incident>, serviceId: int, action: Action, now: int): (r: seq<Event>)
    ensures |r| == if action == Keep then 0 else 1
    ensures action == Open ==>
      r[0] == Event(CreateIncident, serviceId, Apply(incidents, serviceId, action, now)[|incidents|].id, now)
    ensures action.Close? ==> r[0] == Event(ResolveIncident, serviceId, action.incidentId, now)
  {
    match action
    case Open => [Event(CreateIncident, serviceId, MaxIncidentId(incidents) + 1, now)]
    case Close(id) => [Event(ResolveIncident, serviceId, id, now)]
    case Keep => []
  }

  /** The positions in the failure table of the service's failures at most `window` seconds old at `now`. */
  ghost function RecentRows(failures: seq<PingFailure>, serviceId: int, now: int, window: int): set<int>
  {
    set k | 0 <= k < |failures| && failures[k].serviceId == serviceId && now - failures[k].failedAt <= window
  }

  lemma {:induction false} RecentFailuresAppend(a: seq<PingFailure>, b: seq<PingFailure>, serviceId: int, now: int, window: int)
    ensures RecentFailures(a + b, serviceId, now, window)
         == RecentFailures(a, serviceId, now, window) + RecentFailures(b, serviceId, now, window)
  {
    if a == [] {
      assert a + b == b;
    } else {
      assert (a + b)[0] == a[0] && (a + b)[1..] == a[1..] + b;
      RecentFailuresAppend(a[1..], b, serviceId, now, window);
    }
  }

  /** Adding one failure row adds its position to the recent rows exactly when it is recent. */
  lemma RecentRowsSnoc(p: seq<PingFailure>, x: PingFailure, serviceId: int, now: int, window: int)
    ensures RecentRows(p + [x], serviceId, now, window)
         == RecentRows(p, serviceId, now, window)
          + (if x.serviceId == serviceId && now - x.failedAt <= window then {|p|} else {})
  {
    var f := p + [x];
    assert forall k | 0 <= k < |p| :: f[k] == p[k];
    assert f[|p|] == x;
  }

  /** The query returns one row per stored failure inside the window, duplicates included. */
  lemma {:induction false} RecentFailuresCount(failures: seq<PingFailure>, serviceId: int, now: int, window: int)
    ensures |RecentFailures(failures, serviceId, now, window)| == |RecentRows(failures, serviceId, now, window)|
  {
    if failures != [] {
      var n := |failures| - 1;
      var p, x := failures[..n], failures[n];
      assert failures == p + [x];
      RecentFailuresCount(p, serviceId, now, window);
      RecentFailuresAppend(p, [x], serviceId, now, window);
      RecentRowsSnoc(p, x, serviceId, now, window);
      var before := RecentRows(p, serviceId, now, window);
      assert n !in before;
      if x.serviceId == serviceId && now - x.failedAt <= window {
        assert RecentFailures([x], serviceId, now, window) == [x];
        assert |before + {n}| == |before| + 1;
      } else {
        assert RecentFailures([x], serviceId, now, window) == [];
        assert before + {} == before;
      }
    }
  }

  /** No service ever has two open incidents. */
  ghost predicate SingleOpenPerService(incidents: seq<Incident>)
  {
    forall a, b :: 0 <= a < b < |incidents| && incidents[a].serviceId == incidents[b].serviceId
      ==> !(IsOpen(incidents[a]) && IsOpen(incidents[b]))
  }

  lemma OpenKeepsSingleOpen(incidents: seq<Incident>, serviceId: int, now: int)
    requires SingleOpenPerService(incidents) && OpenIncidentOf(incidents, serviceId).None?
    ensures var after := Apply(incidents, serviceId, Open, now);
            SingleOpenPerService(after) && OpenIncidentOf(after, serviceId).Some?
  {
    var after := Apply(incidents, serviceId, Open, now);
    var n := |incidents|;
    assert after[n] in after;
    forall a, b | 0 <= a < b < |after| && after[a].serviceId == after[b].serviceId
      ensures !(IsOpen(after[a]) && IsOpen(after[b]))
    {
      if b == n {
        assert after[a] == incidents[a];
        assert incidents[a] in incidents;
      } else {
        assert after[a] == incidents[a] && after[b] == incidents[b];
      }
    }
  }

  lemma CloseKeepsSingleOpen(incidents: seq<Incident>, serviceId: int, now: int)
    requires TablesValid(incidents) && SingleOpenPerService(incidents)
    requires OpenIncidentOf(incidents, serviceId).Some?
    ensures var after := Apply(incidents, serviceId, Close(OpenIncidentOf(incidents, serviceId).value.id), now);
            SingleOpenPerService(after) && OpenIncidentOf(after, serviceId).None?
  {
    var open := OpenIncidentOf(incidents, serviceId).value;
    var k :| 0 <= k < |incidents| && incidents[k] == open;
    ResolvedKeepsPairs(incidents, k, now);
    ResolvedLeavesNoneOpen(incidents, k, now);
  }

  /** Resolving the open row at position `k` keeps at most one open row per service. */
  lemma ResolvedKeepsPairs(incidents: seq<Incident>, k: int, now: int)
    requires SingleOpenPerService(incidents) && 0 <= k < |incidents| && IsOpen(incidents[k])
    ensures SingleOpenPerService(ResolveRows(incidents, incidents[k].id, now))
  {
    var after := ResolveRows(incidents, incidents[k].id, now);
    StillOpenUntouched(incidents, k, now);
    forall a, b | 0 <= a < b < |after| && after[a].serviceId == after[b].serviceId
      ensures !(IsOpen(after[a]) && IsOpen(after[b]))
    {
      SingleOpenAt(incidents, a, b);
    }
  }

  /** Resolving the one open row of a service at position `k` leaves the service without an open row. */
  lemma ResolvedLeavesNoneOpen(incidents: seq<Incident>, k: int, now: int)
    requires SingleOpenPerService(incidents) && 0 <= k < |incidents| && IsOpen(incidents[k])
    ensures OpenIncidentOf(ResolveRows(incidents, incidents[k].id, now), incidents[k].serviceId).None?
  {
    var after := ResolveRows(incidents, incidents[k].id, now);
    var serviceId := incidents[k].serviceId;
    StillOpenUntouched(incidents, k, now);
    forall i | i in after && i.serviceId == serviceId ensures !IsOpen(i) {
      var j :| 0 <= j < |after| && after[j] == i;
      if j != k {
        SingleOpenAt(incidents, j, k);
      }
    }
  }

  /** After resolving the incident at position `k`, every row still open is an unchanged row other than `k`. */
  lemma StillOpenUntouched(incidents: seq<Incident>, k: int, now: int)
    requires 0 <= k < |incidents| && IsOpen(incidents[k])
    ensures var after := ResolveRows(incidents, incidents[k].id, now);
            forall j :: 0 <= j < |after| && IsOpen(after[j]) ==> after[j] == incidents[j] && j != k
  {
  }

  /** Two different rows of one service are never both open. */
  lemma SingleOpenAt(incidents: seq<Incident>, x: int, y: int)
    requires SingleOpenPerService(incidents) && 0 <= x < |incidents| && 0 <= y < |incidents| && x != y
    requires incidents[x].serviceId == incidents[y].serviceId
    ensures !(IsOpen(incidents[x]) && IsOpen(incidents[y]))
  {
    if y < x {
      assert !(IsOpen(incidents[y]) && IsOpen(incidents[x]));
    }
  }

  /**
   * A tick keeps the store valid and at most one open incident per service;
   * afterwards the service has an open incident exactly when the trigger held.
   */
  lemma TickKeepsSingleOpen(incidents: seq<Incident>, serviceId: int, shouldTrigger: bool, now: int)
    requires TablesValid(incidents) && SingleOpenPerService(incidents)
    ensures var after := Apply(incidents, serviceId, Decide(shouldTrigger, OpenIncidentOf(incidents, serviceId)), now);
            TablesValid(after) && SingleOpenPerService(after)
            && (OpenIncidentOf(after, serviceId).Some? <==> shouldTrigger)
  {
    var open := OpenIncidentOf(incidents, serviceId);
    match Decide(shouldTrigger, open)
    case Open =>
      CreateKeepsValid(incidents, serviceId, now);
      OpenKeepsSingleOpen(incidents, serviceId, now);
    case Close(id) =>
      TransitionsKeepValid(incidents, id, now);
      CloseKeepsSingleOpen(incidents, serviceId, now);
    case Keep =>
  }

  class IpStatusCollector {
    const service: Service
    /** The alerting window in seconds. */
    const alertingWindowSeconds: int
    const db: Database
    /** Messages handed to the publisher, in order. */
    var published: seq<Event>

    constructor (service: Service, db: Database)
      ensures this.service == service && this.db == db && published == []
      ensures alertingWindowSeconds == service.alertingWindowNpings * service.frequencySeconds
    {
      this.service := service;
      this.db := db;
      alertingWindowSeconds := service.alertingWindowNpings * service.frequencySeconds;
      published := [];
    }

    /**
     * The recent-failure query against the threshold: it fires exactly when
     * at least the threshold of the service's stored failures are at most a
     * window old at `now`.
     */
    predicate ShouldTriggerIncident(now: int): (r: bool)
      reads this, db
      ensures r <==> |RecentRows(db.pingFailures, service.id, now, alertingWindowSeconds)| >= service.failureThreshold
    {
      RecentFailuresCount(db.pingFailures, service.id, now, alertingWindowSeconds);
      |RecentFailures(db.pingFailures, service.id, now, alertingWindowSeconds)| >= service.failureThreshold
    }

    /**
     * One tick with the probe's outcome. The failure is recorded before the
     * trigger is evaluated; then the service's incident is opened (and its
     * creation published) or resolved (and its resolution published) as
     * `Decide` says.
     */
    method RunOnce(outcome: HttpOutcome, now: int)
      requires db.Valid()
      modifies this`published, db`pingFailures, db`incidents
      ensures db.Valid()
      ensures db.pingFailures == old(db.pingFailures) + if CheckSucceeds(outcome) then [] else [PingFailure(service.id, now)]
      ensures var action := Decide(ShouldTriggerIncident(now), OpenIncidentOf(old(db.incidents), service.id));
              && db.incidents == Apply(old(db.incidents), service.id, action, now)
              && published == old(published) + Announce(old(db.incidents), service.id, action, now)
    {
      if !CheckSucceeds(outcome) {
        db.RecordPingFailure(service.id, now);
      }
      var shouldTrigger := |RecentFailures(db.pingFailures, service.id, now, alertingWindowSeconds)| >= service.failureThreshold;
      var open := OpenIncidentOf(db.incidents, service.id);
      if shouldTrigger && open.None? {
        var incident := db.CreateIncident(service.id, now);
        published := published + [Event(CreateIncident, service.id, incident.id, now)];
      }
      if !shouldTrigger && open.Some? {
        db.ResolveIncident(open.value.id, now);
        published := published + [Event(ResolveIncident, service.id, open.value.id, now)];
      }
    }
  }
}

=== FILE: dummy_db.dfy ===
/**
 * The generator of demonstration data. Every random draw is a parameter: a
 * draw from a fixed list is an index reduced modulo the list's length, so
 * every draw picks a member of the list, and a draw of a number is reduced
 * into the source's range.
 */
module DummyDb {
  import opened Wrappers
  import opened Models

  const FREQUENCY_CHOICES: seq<int> := [30, 60, 120, 300]
  const WINDOW_CHOICES: seq<int> := [300, 600, 900]
  const CONTACT_TYPES: seq<string> := ["email", "phone"]
  const STATUSES: seq<Status> := [Registered, Acknowledged, Resolved]
  /** Incidents start at most this many seconds before the generation time. */
  const START_RANGE_SECONDS := 30 * 24 * 60 * 60
  const TWICE_MESSAGE := "Number of administrators must be exactly twice the number of services"

  /** A generated service row; the generator writes a window in seconds rather than in pings. */
  datatype ServiceRow = ServiceRow(id: int, name: string, ip: string, frequencySeconds: int, alertingWindowSeconds: int)

  datatype ServiceDraw = ServiceDraw(name: string, ip: string, frequencyPick: nat, windowPick: nat)
  datatype AdminDraw = AdminDraw(typePick: nat, email: string, phone: string, name: string)
  datatype IncidentDraw = IncidentDraw(startPick: nat, statusPick: nat, minutesPick: nat, servicePick: nat)

  /** `generate_services`: one row per draw, ids 1..n, frequency and window from their lists. */
  method GenerateServices(draws: seq<ServiceDraw>) returns (rows: seq<ServiceRow>)
    ensures |rows| == |draws|
    ensures forall k :: 0 <= k < |rows| ==>
      && rows[k].id == k + 1 && rows[k].name == draws[k].name && rows[k].ip == draws[k].ip
      && rows[k].frequencySeconds in FREQUENCY_CHOICES && rows[k].alertingWindowSeconds in WINDOW_CHOICES
  {
    rows := [];
    for k := 0 to |draws|
      invariant |rows| == k
      invariant forall j :: 0 <= j < k ==>
        && rows[j].id == j + 1 && rows[j].name == draws[j].name && rows[j].ip == draws[j].ip
        && rows[j].frequencySeconds in FREQUENCY_CHOICES && rows[j].alertingWindowSeconds in WINDOW_CHOICES
    {
      var d := draws[k];
      var frequency := FREQUENCY_CHOICES[d.frequencyPick % |FREQUENCY_CHOICES|];
      var window := WINDOW_CHOICES[d.windowPick % |WINDOW_CHOICES|];
      rows := rows + [ServiceRow(k + 1, d.name, d.ip, frequency, window)];
    }
  }

  /** `generate_admins`: ids 1..n; the contact value is the e-mail address exactly when the type is "email". */
  method GenerateAdmins(draws: seq<AdminDraw>) returns (rows: seq<Admin>)
    ensures |rows| == |draws|
    ensures forall k :: 0 <= k < |rows| ==>
      && rows[k].id == k + 1 && rows[k].name == draws[k].name && rows[k].contactType in CONTACT_TYPES
      && rows[k].contactValue == if rows[k].contactType == "email" then draws[k].email else draws[k].phone
  {
    rows := [];
    for k := 0 to |draws|
      invariant |rows| == k
      invariant forall j :: 0 <= j < k ==>
        && rows[j].id == j + 1 && rows[j].name == draws[j].name && rows[j].contactType in CONTACT_TYPES
        && rows[j].contactValue == if rows[j].contactType == "email" then draws[j].email else draws[j].phone
    {
      var d := draws[k];
      var contactType := CONTACT_TYPES[d.typePick % |CONTACT_TYPES|];
      var contactValue := if contactType == "email" then d.email else d.phone;
      rows := rows + [Admin(k + 1, d.name, contactType, contactValue)];
    }
  }

  /**
   * `generate_service_admins`: fails unless there are exactly two admins per
   * service; otherwise service i gets admin 2i as primary and admin 2i+1 as
   * secondary, in service order.
   */
  method GenerateServiceAdmins(serviceIds: seq<int>, adminIds: seq<int>) returns (r: Result<seq<ServiceAdmin>, string>)
    ensures r.Failure? <==> |adminIds| != 2 * |serviceIds|
    ensures r.Failure? ==> r.error == TWICE_MESSAGE
    ensures r.Success? ==> |r.value| == |adminIds|
    ensures r.Success? ==> forall j :: 0 <= j < |r.value| ==>
      r.value[j] == ServiceAdmin(serviceIds[j / 2], adminIds[j], if j % 2 == 0 then Primary else Secondary)
  {
    if |adminIds| != 2 * |serviceIds| {
      return Failure(TWICE_MESSAGE);
    }
    var rows: seq<ServiceAdmin> := [];
    for i := 0 to |serviceIds|
      invariant |rows| == 2 * i
      invariant forall j :: 0 <= j < 2 * i ==>
        rows[j] == ServiceAdmin(serviceIds[j / 2], adminIds[j], if j % 2 == 0 then Primary else Secondary)
    {
      rows := rows + [ServiceAdmin(serviceIds[i], adminIds[2 * i], Primary)];
      rows := rows + [ServiceAdmin(serviceIds[i], adminIds[2 * i + 1], Secondary)];
    }
    return Success(rows);
  }

  /**
   * With distinct service ids, each service has exactly one primary and one
   * secondary row: the admins at positions 2i and 2i+1.
   */
  lemma AssignmentPerService(serviceIds: seq<int>, adminIds: seq<int>, rows: seq<ServiceAdmin>, i: int, l: ServiceAdmin)
    requires |adminIds| == 2 * |serviceIds| && |rows| == |adminIds|
    requires forall j :: 0 <= j < |rows| ==>
      rows[j] == ServiceAdmin(serviceIds[j / 2], adminIds[j], if j % 2 == 0 then Primary else Secondary)
    requires forall a, b :: 0 <= a < b < |serviceIds| ==> serviceIds[a] != serviceIds[b]
    requires 0 <= i < |serviceIds|
    ensures l in rows && l.serviceId == serviceIds[i] && l.role == Primary
            <==> l == ServiceAdmin(serviceIds[i], adminIds[2 * i], Primary)
    ensures l in rows && l.serviceId == serviceIds[i] && l.role == Secondary
            <==> l == ServiceAdmin(serviceIds[i], adminIds[2 * i + 1], Secondary)
  {
    assert rows[2 * i] == ServiceAdmin(serviceIds[i], adminIds[2 * i], Primary);
    assert rows[2 * i + 1] == ServiceAdmin(serviceIds[i], adminIds[2 * i + 1], Secondary) by {
      assert (2 * i + 1) / 2 == i;
    }
    if l in rows && l.serviceId == serviceIds[i] {
      var j :| 0 <= j < |rows| && rows[j] == l;
      var s := j / 2;
      assert serviceIds[s] == serviceIds[i];
      assert s == i;
      assert j == 2 * i || j == 2 * i + 1;
    }
  }

  /** The admin column of the assignment is the admin list itself: every admin is used once, in order. */
  lemma AssignmentUsesEachAdminOnce(serviceIds: seq<int>, adminIds: seq<int>, rows: seq<ServiceAdmin>)
    requires |adminIds| == 2 * |serviceIds| && |rows| == |adminIds|
    requires forall j :: 0 <= j < |rows| ==>
      rows[j] == ServiceAdmin(serviceIds[j / 2], adminIds[j], if j % 2 == 0 then Primary else Secondary)
    ensures AdminColumn(rows) == adminIds
  {
  }

  function AdminColumn(rows: seq<ServiceAdmin>): (r: seq<int>)
    ensures |r| == |rows| && forall j :: 0 <= j < |rows| ==> r[j] == rows[j].adminId
  {
    if rows == [] then [] else [rows[0].adminId] + AdminColumn(rows[1..])
  }

  /**
   * `generate_incidents`: ids 1..n; a resolved incident ends 5 to 300 minutes
   * after it started, any other has no end. Picking a service from an empty
   * list fails.
   */
  method GenerateIncidents(draws: seq<IncidentDraw>, serviceIds: seq<int>, now: int) returns (r: Result<seq<Incident>, string>)
    ensures r.Failure? <==> |draws| > 0 && serviceIds == []
    ensures r.Success? ==> |r.value| == |draws|
    ensures r.Success? ==> forall k :: 0 <= k < |r.value| ==>
      && r.value[k].id == k + 1
      && r.value[k].serviceId in serviceIds
      && now - START_RANGE_SECONDS <= r.value[k].startedAt <= now
      && (r.value[k].endedAt.Some? <==> r.value[k].status == Resolved)
      && (r.value[k].endedAt.Some? ==>
            5 * 60 <= r.value[k].endedAt.value - r.value[k].startedAt <= 300 * 60
            && (r.value[k].endedAt.value - r.value[k].startedAt) % 60 == 0)
  {
    if |draws| > 0 && serviceIds == [] {
      return Failure("Cannot choose from an empty sequence");
    }
    var rows: seq<Incident> := [];
    for k := 0 to |draws|
      invariant |rows| == k
      invariant forall j :: 0 <= j < k ==>
        && rows[j].id == j + 1
        && rows[j].serviceId in serviceIds
        && now - START_RANGE_SECONDS <= rows[j].startedAt <= now
        && (rows[j].endedAt.Some? <==> rows[j].status == Resolved)
        && (rows[j].endedAt.Some? ==>
              5 * 60 <= rows[j].endedAt.value - rows[j].startedAt <= 300 * 60
              && (rows[j].endedAt.value - rows[j].startedAt) % 60 == 0)
    {
      var d := draws[k];
      var start := now - d.startPick % (START_RANGE_SECONDS + 1);
      var status := STATUSES[d.statusPick % |STATUSES|];
      var end := if status == Resolved then Some(start + (5 + d.minutesPick % 296) * 60) else None;
      var serviceId := serviceIds[d.servicePick % |serviceIds|];
      rows := rows + [Incident(k + 1, serviceId, start, end, status)];
    }
    return Success(rows);
  }

  /** Generated incidents satisfy the store's invariants: ids are a key and end times go with resolution. */
  lemma GeneratedIncidentsValid(rows: seq<Incident>)
    requires forall k :: 0 <= k < |rows| ==>
      rows[k].id == k + 1 && (rows[k].endedAt.Some? <==> rows[k].status == Resolved)
    ensures IncidentIdsUnique(rows) && EndedIffResolved(rows)
  {
  }
}

=== FILE: escalation.dfy ===
/**
 * The newer notification engine: primaries are mailed when an incident is
 * created, each such mail schedules one escalation check, the check mails
 * the secondaries unless the incident was acknowledged meanwhile, and the
 * resolution mails everyone who was contacted. Every notification mail is
 * paired with exactly one contact-attempt row.
 */
module Escalation {
  import opened Wrappers
  import opened Models
  import opened Messages
  import opened Store

  /** A pending escalation check: the incident it is about and when it becomes due. */
  datatype EscalationTask = EscalationTask(incidentId: int, dueAt: int)

  /** `b` is `a` with zero or more entries appended. */
  ghost predicate Extends<T>(a: seq<T>, b: seq<T>)
  {
    |a| <= |b| && b[..|a|] == a
  }

  /** Two appends in a row are one append of both parts. */
  lemma ExtendsChain<T>(a: seq<T>, b: seq<T>, c: seq<T>)
    requires Extends(a, b) && Extends(b, c)
    ensures Extends(a, c) && c[|a|..] == b[|a|..] + c[|b|..]
  {
    assert c[..|b|][..|a|] == c[..|a|];
  }

  function Repeat<T>(x: T, n: nat): (r: seq<T>)
    ensures |r| == n && forall k :: 0 <= k < n ==> r[k] == x
  {
    if n == 0 then [] else Repeat(x, n - 1) + [x]
  }

  /** The row recording one notification: email, `sent` exactly when the mailer succeeded, no response yet. */
  function AttemptFor(incidentId: int, adminId: int, at: int, delivered: bool): (t: ContactAttempt)
    ensures t.incidentId == incidentId && t.adminId == adminId && t.attemptedAt == at
    ensures t.channel == "email" && t.responseAt.None?
    ensures t.result == Some(Sent) <==> delivered
    ensures t.result == Some(Failed) <==> !delivered
  {
    ContactAttempt(incidentId, adminId, at, "email", Some(if delivered then Sent else Failed), None)
  }

  /** The acknowledgment token: exactly the incident and the admin, with no expiry. */
  function TokenFor(incidentId: int, adminId: int): (t: AckToken)
    ensures t.incidentId == incidentId && t.adminId == adminId && t.exp.None?
  {
    AckToken(incidentId, adminId, None)
  }

  /** The text after "Service" in the subject line: a space and the name, or nothing for a missing or empty name. */
  function ServiceLabel(name: Option<string>): (r: string)
    ensures name.Some? && name.value != [] ==> r == " " + name.value
    ensures name.None? || name.value == [] ==> r == []
  {
    match name
    case Some(n) => if n != [] then " " + n else ""
    case None => ""
  }

  /** The "Incident detected" mail to an admin. */
  function DownMail(incidentId: int, admin: AdminContact, caption: string, delivered: bool): Delivery
  {
    Delivery(admin.contactValue, IncidentDetected, DownNotice(caption, TokenFor(incidentId, admin.id), None), delivered)
  }

  /**
   * `mails` and `attempts` are what notifying `admins` in order produced:
   * one mail and one attempt per admin, the attempt's result following the mail.
   */
  ghost predicate Notified(incidentId: int, admins: seq<AdminContact>, caption: string, now: int,
                           mails: seq<Delivery>, attempts: seq<ContactAttempt>)
  {
    && |mails| == |admins| && |attempts| == |admins|
    && forall k :: 0 <= k < |admins| ==>
         && mails[k] == DownMail(incidentId, admins[k], caption, mails[k].delivered)
         && attempts[k] == AttemptFor(incidentId, admins[k].id, now, mails[k].delivered)
  }

  lemma NotifiedSnoc(incidentId: int, admins: seq<AdminContact>, caption: string, now: int,
                     mails: seq<Delivery>, attempts: seq<ContactAttempt>,
                     admin: AdminContact, mail: Delivery, attempt: ContactAttempt)
    requires Notified(incidentId, admins, caption, now, mails, attempts)
    requires Notified(incidentId, [admin], caption, now, [mail], [attempt])
    ensures Notified(incidentId, admins + [admin], caption, now, mails + [mail], attempts + [attempt])
  {
    var n := |admins|;
    assert (admins + [admin])[n] == admin && (mails + [mail])[n] == mail && (attempts + [attempt])[n] == attempt;
  }

  /** Notifying one more admin of the list extends both logs by that admin's mail and row. */
  lemma NotifyStep(incidentId: int, admins: seq<AdminContact>, k: nat, caption: string, now: int,
                   b0: seq<Delivery>, m0: seq<Delivery>, m1: seq<Delivery>,
                   a0: seq<ContactAttempt>, t0: seq<ContactAttempt>, t1: seq<ContactAttempt>)
    requires k < |admins| && Extends(b0, m0) && Extends(m0, m1) && Extends(a0, t0) && Extends(t0, t1)
    requires Notified(incidentId, admins[..k], caption, now, m0[|b0|..], t0[|a0|..])
    requires Notified(incidentId, [admins[k]], caption, now, m1[|m0|..], t1[|t0|..])
    ensures Extends(b0, m1) && Extends(a0, t1)
    ensures Notified(incidentId, admins[..k + 1], caption, now, m1[|b0|..], t1[|a0|..])
  {
    ExtendsChain(b0, m0, m1);
    ExtendsChain(a0, t0, t1);
    assert admins[..k + 1] == admins[..k] + [admins[k]];
    assert m1[|m0|..] == [m1[|m0|]] && t1[|t0|..] == [t1[|t0|]];
    NotifiedSnoc(incidentId, admins[..k], caption, now, m0[|b0|..], t0[|a0|..], admins[k], m1[|m0|], t1[|t0|]);
  }

  /** One more repetition adds one more copy at the end. */
  lemma RepeatSnoc<T>(x: T, n: nat)
    ensures Repeat(x, n + 1) == Repeat(x, n) + [x]
  {
  }

  /** Every admin notified for an incident is afterwards among the admins `get_notified_admins` returns. */
  lemma NotifiedAreRecorded(incidentId: int, admins: seq<AdminContact>, caption: string, now: int,
                            mails: seq<Delivery>, before: seq<ContactAttempt>, attempts: seq<ContactAttempt>,
                            table: seq<Admin>)
    requires Notified(incidentId, admins, caption, now, mails, attempts)
    requires forall c :: c in admins ==> exists a :: a in table && Contact(a) == c
    ensures forall c :: c in admins ==> c in GetNotifiedAdmins(table, before + attempts, incidentId)
  {
    forall c | c in admins ensures c in GetNotifiedAdmins(table, before + attempts, incidentId) {
      var k :| 0 <= k < |admins| && admins[k] == c;
      var a :| a in table && Contact(a) == c;
      var t := attempts[k];
      assert t == (before + attempts)[|before| + k];
      assert t in before + attempts && t.incidentId == incidentId && t.adminId == a.id;
    }
  }

  /** The mails of a resolution: one "Incident resolved" mail per admin, in order. */
  ghost predicate ResolutionMails(admins: seq<AdminContact>, mails: seq<Delivery>)
  {
    |mails| == |admins| &&
    forall k :: 0 <= k < |admins| ==>
      mails[k] == Delivery(admins[k].contactValue, IncidentResolved, BackOnline, mails[k].delivered)
  }

  /** Sending the resolution mail to one more notified admin keeps the mails sent so far in order. */
  lemma ResolutionStep(admins: seq<AdminContact>, k: nat, base: seq<Delivery>, m0: seq<Delivery>, ok: bool,
                       m1: seq<Delivery>)
    requires k < |admins| && Extends(base, m0) && ResolutionMails(admins[..k], m0[|base|..])
    requires m1 == m0 + [Delivery(admins[k].contactValue, IncidentResolved, BackOnline, ok)]
    ensures Extends(base, m1) && ResolutionMails(admins[..k + 1], m1[|base|..])
  {
    assert m1[..|m0|] == m0;
    assert m1[|base|..] == m0[|base|..] + [m1[|m0|]];
  }

  class NotificationEngine {
    const db: Database
    const mailer: Mailer
    /** Seconds between a first notification and its escalation check. */
    const escalationDelaySeconds: int
    /** Escalation checks handed to the task queue, in order. */
    var tasks: seq<EscalationTask>

    constructor (db: Database, mailer: Mailer, escalationDelaySeconds: int)
      ensures this.db == db && this.mailer == mailer && this.escalationDelaySeconds == escalationDelaySeconds
      ensures tasks == []
    {
      this.db := db;
      this.mailer := mailer;
      this.escalationDelaySeconds := escalationDelaySeconds;
      tasks := [];
    }

    function Label(incidentId: int): string
      reads db`incidents, db`services
    {
      ServiceLabel(GetServiceByIncident(db.incidents, db.services, incidentId))
    }

    function AdminsOf(incidentId: int, role: Role): seq<AdminContact>
      reads db`incidents, db`admins, db`serviceAdmins
    {
      GetAdminsByIncident(db.incidents, db.admins, db.serviceAdmins, incidentId, role)
    }

    /** What the creation handler adds: the primaries notified in order, one pending check each. */
    ghost predicate CreatedEffects(incidentId: int, now: int, mails: seq<Delivery>, attempts: seq<ContactAttempt>,
                                   newTasks: seq<EscalationTask>)
      reads db`incidents, db`services, db`admins, db`serviceAdmins
    {
      && Notified(incidentId, AdminsOf(incidentId, Primary), Label(incidentId), now, mails, attempts)
      && newTasks == Repeat(EscalationTask(incidentId, now + escalationDelaySeconds), |AdminsOf(incidentId, Primary)|)
    }

    /** What the escalation check adds: nothing once acknowledged, else the secondaries notified in order. */
    ghost predicate EscalatedEffects(incidentId: int, now: int, mails: seq<Delivery>, attempts: seq<ContactAttempt>,
                                     newTasks: seq<EscalationTask>)
      reads db`incidents, db`services, db`admins, db`serviceAdmins
    {
      && newTasks == []
      && if IsIncidentAcknowledged(db.incidents, incidentId) then mails == [] && attempts == []
         else Notified(incidentId, AdminsOf(incidentId, Secondary), Label(incidentId), now, mails, attempts)
    }

    /** One notification: one mail, one contact attempt, and a pending check unless this is an escalation. */
    method NotifyAdmin(incidentId: int, admin: AdminContact, escalation: bool, now: int)
      modifies mailer, db`contactAttempts, this`tasks
      ensures Extends(old(mailer.outbox), mailer.outbox)
      ensures Extends(old(db.contactAttempts), db.contactAttempts)
      ensures Notified(incidentId, [admin], Label(incidentId), now,
                       mailer.outbox[|old(mailer.outbox)|..], db.contactAttempts[|old(db.contactAttempts)|..])
      ensures tasks == old(tasks) + if escalation then [] else [EscalationTask(incidentId, now + escalationDelaySeconds)]
    {
      var token := TokenFor(incidentId, admin.id);
      var caption := ServiceLabel(GetServiceByIncident(db.incidents, db.services, incidentId));
      var ok := mailer.Send(admin.contactValue, IncidentDetected, DownNotice(caption, token, None));
      db.InsertContactAttempt(incidentId, admin.id, "email", if ok then Sent else Failed, now);
      if !escalation {
        ScheduleEscalation(incidentId, now);
      }
    }

    /** Hands one escalation check for the incident to the queue, due after the delay. */
    method ScheduleEscalation(incidentId: int, now: int)
      modifies this`tasks
      ensures tasks == old(tasks) + [EscalationTask(incidentId, now + escalationDelaySeconds)]
    {
      tasks := tasks + [EscalationTask(incidentId, now + escalationDelaySeconds)];
    }

    /** Notifies each admin of the list once, in order. */
    method NotifyEach(incidentId: int, admins: seq<AdminContact>, escalation: bool, now: int)
      modifies mailer, db`contactAttempts, this`tasks
      ensures Extends(old(mailer.outbox), mailer.outbox)
      ensures Extends(old(db.contactAttempts), db.contactAttempts)
      ensures Notified(incidentId, admins, Label(incidentId), now,
                       mailer.outbox[|old(mailer.outbox)|..], db.contactAttempts[|old(db.contactAttempts)|..])
      ensures tasks == old(tasks) + if escalation then [] else Repeat(EscalationTask(incidentId, now + escalationDelaySeconds), |admins|)
    {
      var caption := Label(incidentId);
      for k := 0 to |admins|
        invariant Extends(old(mailer.outbox), mailer.outbox)
        invariant Extends(old(db.contactAttempts), db.contactAttempts)
        invariant Notified(incidentId, admins[..k], caption, now,
                           mailer.outbox[|old(mailer.outbox)|..], db.contactAttempts[|old(db.contactAttempts)|..])
        invariant tasks == old(tasks) + if escalation then [] else Repeat(EscalationTask(incidentId, now + escalationDelaySeconds), k)
      {
        ghost var mails, attempts := mailer.outbox, db.contactAttempts;
        NotifyAdmin(incidentId, admins[k], escalation, now);
        NotifyStep(incidentId, admins, k, caption, now, old(mailer.outbox), mails, mailer.outbox,
                   old(db.contactAttempts), attempts, db.contactAttempts);
        if !escalation {
          RepeatSnoc(EscalationTask(incidentId, now + escalationDelaySeconds), k);
        }
      }
    }

    /** `_handle_incident_created`: every primary admin of the incident is notified once, in order. */
    method HandleIncidentCreated(incidentId: int, now: int)
      modifies mailer, db`contactAttempts, this`tasks
      ensures Extends(old(mailer.outbox), mailer.outbox) && Extends(old(db.contactAttempts), db.contactAttempts)
      ensures Extends(old(tasks), tasks)
      ensures CreatedEffects(incidentId, now, mailer.outbox[|old(mailer.outbox)|..],
                             db.contactAttempts[|old(db.contactAttempts)|..], tasks[|old(tasks)|..])
    {
      var admins := GetAdminsByIncident(db.incidents, db.admins, db.serviceAdmins, incidentId, Primary);
      NotifyEach(incidentId, admins, false, now);
    }

    /** `handle_escalation_check`: nothing once acknowledged, otherwise every secondary admin notified once. */
    method HandleEscalationCheck(incidentId: int, now: int)
      modifies mailer, db`contactAttempts, this`tasks
      ensures Extends(old(mailer.outbox), mailer.outbox) && Extends(old(db.contactAttempts), db.contactAttempts)
      ensures tasks == old(tasks)
      ensures EscalatedEffects(incidentId, now, mailer.outbox[|old(mailer.outbox)|..],
                               db.contactAttempts[|old(db.contactAttempts)|..], [])
    {
      if IsIncidentAcknowledged(db.incidents, incidentId) {
        return;
      }
      var admins := GetAdminsByIncident(db.incidents, db.admins, db.serviceAdmins, incidentId, Secondary);
      NotifyEach(incidentId, admins, true, now);
    }

    /** `_handle_incident_resolved`: one "Incident resolved" mail per notified admin; no attempts, no checks. */
    method HandleIncidentResolved(incidentId: int)
      modifies mailer
      ensures Extends(old(mailer.outbox), mailer.outbox)
      ensures ResolutionMails(GetNotifiedAdmins(db.admins, db.contactAttempts, incidentId),
                              mailer.outbox[|old(mailer.outbox)|..])
    {
      var admins := GetNotifiedAdmins(db.admins, db.contactAttempts, incidentId);
      for k := 0 to |admins|
        invariant Extends(old(mailer.outbox), mailer.outbox)
        invariant ResolutionMails(admins[..k], mailer.outbox[|old(mailer.outbox)|..])
      {
        ghost var mails := mailer.outbox;
        var ok := mailer.Send(admins[k].contactValue, IncidentResolved, BackOnline);
        ResolutionStep(admins, k, old(mailer.outbox), mails, ok, mailer.outbox);
      }
    }

    /** `handle_event`: creation and resolution events go to their handlers; any other event does nothing. */
    method HandleEvent(e: Event, now: int)
      modifies mailer, db`contactAttempts, this`tasks
      ensures Extends(old(mailer.outbox), mailer.outbox) && Extends(old(db.contactAttempts), db.contactAttempts)
      ensures Extends(old(tasks), tasks)
      ensures e.kind == CreateIncident ==>
        CreatedEffects(e.incidentId, now, mailer.outbox[|old(mailer.outbox)|..],
                       db.contactAttempts[|old(db.contactAttempts)|..], tasks[|old(tasks)|..])
      ensures e.kind == ResolveIncident ==>
        && db.contactAttempts == old(db.contactAttempts) && tasks == old(tasks)
        && ResolutionMails(GetNotifiedAdmins(db.admins, db.contactAttempts, e.incidentId), mailer.outbox[|old(mailer.outbox)|..])
      ensures e.kind.Other? ==>
        mailer.outbox == old(mailer.outbox) && db.contactAttempts == old(db.contactAttempts) && tasks == old(tasks)
    {
      if e.kind == CreateIncident {
        HandleIncidentCreated(e.incidentId, now);
      } else if e.kind == ResolveIncident {
        HandleIncidentResolved(e.incidentId);
      }
    }
  }
}

=== FILE: legacy_escalation.dfy ===
/**
 * The older notification engine. Tokens expire 15 minutes after issue, and
 * every first notification runs its escalation check inline after sleeping
 * for the escalation delay, so with k primaries the secondaries are reached
 * up to k times. The wall clock is the engine's `clock`, advanced only by
 * that sleep.
 */
module LegacyEscalation {
  import opened Wrappers
  import opened Models
  import opened Messages
  import opened Store
  import opened Escalation

  const JWT_EXP_MINUTES := 15
  const ESCALATION_DELAY_SECONDS := 300

  /** A notification as it is carried out: who is mailed and at which clock reading. */
  datatype Notice = Notice(admin: AdminContact, at: int)

  /** The same clock reading for every admin of the list, in order. */
  function Round(admins: seq<AdminContact>, at: int): (r: seq<Notice>)
    ensures |r| == |admins| && forall k :: 0 <= k < |admins| ==> r[k] == Notice(admins[k], at)
  {
    if admins == [] then [] else Round(admins[..|admins| - 1], at) + [Notice(admins[|admins| - 1], at)]
  }

  /**
   * The notices of a creation: primary k is mailed at `start + k * delay`;
   * unless the incident is acknowledged its check then mails every secondary
   * one delay later.
   */
  function Plan(primaries: seq<AdminContact>, secondaries: seq<AdminContact>, acked: bool, start: int): seq<Notice>
  {
    if primaries == [] then []
    else
      var n := |primaries| - 1;
      var t := start + n * ESCALATION_DELAY_SECONDS;
      Plan(primaries[..n], secondaries, acked, start)
      + [Notice(primaries[n], t)]
      + (if acked then [] else Round(secondaries, t + ESCALATION_DELAY_SECONDS))
  }

  /** Extending the primaries by one adds that primary's notice and its check's notices. */
  lemma PlanSnoc(primaries: seq<AdminContact>, k: nat, secondaries: seq<AdminContact>, acked: bool, start: int)
    requires k < |primaries|
    ensures Plan(primaries[..k + 1], secondaries, acked, start)
         == Plan(primaries[..k], secondaries, acked, start)
            + ([Notice(primaries[k], start + k * ESCALATION_DELAY_SECONDS)]
               + if acked then [] else Round(secondaries, start + k * ESCALATION_DELAY_SECONDS + ESCALATION_DELAY_SECONDS))
  {
    assert primaries[..k + 1][..k] == primaries[..k];
  }

  /** The token of the older engine: incident, admin, and an expiry 15 minutes after issue. */
  function ExpiringToken(incidentId: int, adminId: int, issuedAt: int): (t: AckToken)
    ensures t.incidentId == incidentId && t.adminId == adminId
    ensures t.exp == Some(issuedAt + 15 * 60)
  {
    AckToken(incidentId, adminId, Some(issuedAt + JWT_EXP_MINUTES * 60))
  }

  /** The "Incident detected" mail of the older engine: no service name, and the link's lifetime stated. */
  function LegacyMail(incidentId: int, n: Notice, delivered: bool): Delivery
  {
    Delivery(n.admin.contactValue, IncidentDetected,
             DownNotice("", ExpiringToken(incidentId, n.admin.id, n.at), Some(JWT_EXP_MINUTES)), delivered)
  }

  /** One notice carried out: its mail, and the attempt row whose result follows the mailer's answer. */
  ghost predicate Done(incidentId: int, n: Notice, mail: Delivery, attempt: ContactAttempt)
  {
    mail == LegacyMail(incidentId, n, mail.delivered) && attempt == AttemptFor(incidentId, n.admin.id, n.at, mail.delivered)
  }

  /** `mails` and `attempts` are what carrying out `notices` in order produced. */
  ghost predicate Carried(incidentId: int, notices: seq<Notice>, mails: seq<Delivery>, attempts: seq<ContactAttempt>)
  {
    && |mails| == |notices| && |attempts| == |notices|
    && forall k {:trigger Done(incidentId, notices[k], mails[k], attempts[k])} :: 0 <= k < |notices| ==>
         Done(incidentId, notices[k], mails[k], attempts[k])
  }

  lemma CarriedAppend(incidentId: int, n1: seq<Notice>, m1: seq<Delivery>, t1: seq<ContactAttempt>,
                      n2: seq<Notice>, m2: seq<Delivery>, t2: seq<ContactAttempt>)
    requires Carried(incidentId, n1, m1, t1) && Carried(incidentId, n2, m2, t2)
    ensures Carried(incidentId, n1 + n2, m1 + m2, t1 + t2)
  {
    forall k | 0 <= k < |n1 + n2|
      ensures Done(incidentId, (n1 + n2)[k], (m1 + m2)[k], (t1 + t2)[k])
    {
      if k < |n1| {
        assert (n1 + n2)[k] == n1[k] && (m1 + m2)[k] == m1[k] && (t1 + t2)[k] == t1[k];
        assert Done(incidentId, n1[k], m1[k], t1[k]);
      } else {
        var j := k - |n1|;
        assert (n1 + n2)[k] == n2[j] && (m1 + m2)[k] == m2[j] && (t1 + t2)[k] == t2[j];
        assert Done(incidentId, n2[j], m2[j], t2[j]);
      }
    }
  }

  /** Notices carried out one batch after another, on a mail log and an attempt table that only grow. */
  lemma CarriedChain(incidentId: int, n1: seq<Notice>, n2: seq<Notice>, joined: seq<Notice>,
                     m1: seq<Delivery>, m2: seq<Delivery>, m3: seq<Delivery>,
                     t1: seq<ContactAttempt>, t2: seq<ContactAttempt>, t3: seq<ContactAttempt>)
    requires Extends(m1, m2) && Extends(m2, m3) && Extends(t1, t2) && Extends(t2, t3)
    requires Carried(incidentId, n1, m2[|m1|..], t2[|t1|..])
    requires Carried(incidentId, n2, m3[|m2|..], t3[|t2|..])
    requires joined == n1 + n2
    ensures Extends(m1, m3) && Extends(t1, t3)
    ensures Carried(incidentId, joined, m3[|m1|..], t3[|t1|..])
  {
    ExtendsChain(m1, m2, m3);
    ExtendsChain(t1, t2, t3);
    CarriedAppend(incidentId, n1, m2[|m1|..], t2[|t1|..], n2, m3[|m2|..], t3[|t2|..]);
  }

  /** The plan for one more primary is the plan before it, then that primary's notice and its check's notices. */
  lemma PlanGrows(primaries: seq<AdminContact>, k: nat, secondaries: seq<AdminContact>, acked: bool, start: int,
                  at: int, check: seq<Notice>)
    requires k < |primaries| && at == start + k * ESCALATION_DELAY_SECONDS
    requires check == if acked then [] else Round(secondaries, at + ESCALATION_DELAY_SECONDS)
    ensures Plan(primaries[..k + 1], secondaries, acked, start)
         == Plan(primaries[..k], secondaries, acked, start) + ([Notice(primaries[k], at)] + check)
  {
    PlanSnoc(primaries, k, secondaries, acked, start);
  }

  /** One more primary carried out, with its inline check, extends the plan of the primaries before it. */
  lemma PlanStep(incidentId: int, primaries: seq<AdminContact>, k: nat, secondaries: seq<AdminContact>,
                 acked: bool, start: int, at: int, check: seq<Notice>,
                 m0: seq<Delivery>, m1: seq<Delivery>, m2: seq<Delivery>,
                 t0: seq<ContactAttempt>, t1: seq<ContactAttempt>, t2: seq<ContactAttempt>)
    requires k < |primaries| && at == start + k * ESCALATION_DELAY_SECONDS
    requires check == if acked then [] else Round(secondaries, at + ESCALATION_DELAY_SECONDS)
    requires Extends(m0, m1) && Extends(m1, m2) && Extends(t0, t1) && Extends(t1, t2)
    requires Carried(incidentId, Plan(primaries[..k], secondaries, acked, start), m1[|m0|..], t1[|t0|..])
    requires Carried(incidentId, [Notice(primaries[k], at)] + check, m2[|m1|..], t2[|t1|..])
    ensures Extends(m0, m2) && Extends(t0, t2)
    ensures Carried(incidentId, Plan(primaries[..k + 1], secondaries, acked, start), m2[|m0|..], t2[|t0|..])
  {
    PlanGrows(primaries, k, secondaries, acked, start, at, check);
    CarriedChain(incidentId, Plan(primaries[..k], secondaries, acked, start), [Notice(primaries[k], at)] + check,
                 Plan(primaries[..k + 1], secondaries, acked, start), m0, m1, m2, t0, t1, t2);
  }

  /** The primaries of the service of the incident's first row; empty when there is no such row. */
  function Primaries(incidents: seq<Incident>, admins: seq<Admin>, links: seq<ServiceAdmin>, incidentId: int): seq<AdminContact>
  {
    match GetIncident(incidents, incidentId)
    case None => []
    case Some(i) => GetAdmins(admins, links, i.serviceId, Primary)
  }

  /** The notices of the escalation check run at `at`: none once acknowledged, else every secondary. */
  function CheckNotices(incidents: seq<Incident>, admins: seq<Admin>, links: seq<ServiceAdmin>,
                        incidentId: int, at: int): seq<Notice>
  {
    if IsIncidentAcknowledged(incidents, incidentId) then []
    else Round(GetAdminsByIncident(incidents, admins, links, incidentId, Secondary), at)
  }

  lemma CarriedSingle(incidentId: int, n: Notice, mail: Delivery, attempt: ContactAttempt)
    requires mail == LegacyMail(incidentId, n, mail.delivered)
    requires attempt == AttemptFor(incidentId, n.admin.id, n.at, mail.delivered)
    ensures Carried(incidentId, [n], [mail], [attempt])
  {
    assert Done(incidentId, [n][0], [mail][0], [attempt][0]);
  }

  /** How often `x` occurs in `s`. */
  function Count<T(==)>(s: seq<T>, x: T): nat
  {
    if s == [] then 0 else Count(s[..|s| - 1], x) + (if s[|s| - 1] == x then 1 else 0)
  }

  /** How many of the notices go to `c`. */
  function NoticesTo(notices: seq<Notice>, c: AdminContact): nat
  {
    if notices == [] then 0
    else NoticesTo(notices[..|notices| - 1], c) + (if notices[|notices| - 1].admin == c then 1 else 0)
  }

  lemma {:induction false} NoticesToAppend(a: seq<Notice>, b: seq<Notice>, c: AdminContact)
    ensures NoticesTo(a + b, c) == NoticesTo(a, c) + NoticesTo(b, c)
  {
    if b == [] {
      assert a + b == a;
    } else {
      var n := |b| - 1;
      assert (a + b)[..|a + b| - 1] == a + b[..n];
      NoticesToAppend(a, b[..n], c);
    }
  }

  lemma {:induction false} NoticesToRound(admins: seq<AdminContact>, at: int, c: AdminContact)
    ensures NoticesTo(Round(admins, at), c) == Count(admins, c)
  {
    if admins != [] {
      var n := |admins| - 1;
      NoticesToRound(admins[..n], at, c);
      NoticesToAppend(Round(admins[..n], at), [Notice(admins[n], at)], c);
      NoticesToSingle(Notice(admins[n], at), c);
    }
  }

  lemma {:induction false} NoticesToSingle(n: Notice, c: AdminContact)
    ensures NoticesTo([n], c) == if n.admin == c then 1 else 0
  {
    assert [n][..0] == [];
  }

  /**
   * With k primaries and no acknowledgment, every secondary is mailed once
   * per primary; once acknowledged, only the primaries are mailed.
   */
  lemma {:induction false} PlanNotices(primaries: seq<AdminContact>, secondaries: seq<AdminContact>, acked: bool,
                                       start: int, c: AdminContact)
    ensures NoticesTo(Plan(primaries, secondaries, acked, start), c)
         == Count(primaries, c) + if acked then 0 else |primaries| * Count(secondaries, c)
  {
    if primaries != [] {
      var n := |primaries| - 1;
      var t := start + n * ESCALATION_DELAY_SECONDS;
      var head := Plan(primaries[..n], secondaries, acked, start);
      var notice := [Notice(primaries[n], t)];
      var tail := if acked then [] else Round(secondaries, t + ESCALATION_DELAY_SECONDS);
      assert Plan(primaries, secondaries, acked, start) == head + notice + tail;
      PlanNotices(primaries[..n], secondaries, acked, start, c);
      NoticesToAppend(head + notice, tail, c);
      NoticesToAppend(head, notice, c);
      NoticesToSingle(notice[0], c);
      if !acked {
        NoticesToRound(secondaries, t + ESCALATION_DELAY_SECONDS, c);
        MulSucc(n, Count(secondaries, c));
      } else {
        assert tail == [];
      }
    }
  }

  /** The number of notices of a creation: each primary, plus all secondaries per primary unless acknowledged. */
  lemma {:induction false} PlanLength(primaries: seq<AdminContact>, secondaries: seq<AdminContact>, acked: bool, start: int)
    ensures |Plan(primaries, secondaries, acked, start)| == |primaries| * (1 + if acked then 0 else |secondaries|)
  {
    if primaries != [] {
      var n := |primaries| - 1;
      var per := 1 + if acked then 0 else |secondaries|;
      var t := start + n * ESCALATION_DELAY_SECONDS;
      PlanLength(primaries[..n], secondaries, acked, start);
      assert |Plan(primaries, secondaries, acked, start)| == n * per + per by {
        assert |(if acked then [] else Round(secondaries, t + ESCALATION_DELAY_SECONDS))| == per - 1;
      }
      MulSucc(n, per);
    }
  }

  /** One more factor adds one more summand; kept apart so the nonlinear step stays out of the plan proofs. */
  lemma MulSucc(n: int, per: int)
    ensures n * per + per == (n + 1) * per
  {
  }

  class NotificationEngine {
    const db: Database
    const mailer: Mailer
    /** The wall clock, in seconds. */
    var clock: int

    constructor (db: Database, mailer: Mailer, clock: int)
      ensures this.db == db && this.mailer == mailer && this.clock == clock
    {
      this.db := db;
      this.mailer := mailer;
      this.clock := clock;
    }

    /**
     * One notification at the current clock reading; a first notification
     * then runs the escalation check, which sleeps for the delay first.
     */
    method NotifyAdmin(incidentId: int, admin: AdminContact, escalation: bool)
      modifies mailer, db`contactAttempts, this`clock
      decreases if escalation then 0 else 2
      ensures Extends(old(mailer.outbox), mailer.outbox) && Extends(old(db.contactAttempts), db.contactAttempts)
      ensures clock == old(clock) + if escalation then 0 else ESCALATION_DELAY_SECONDS
      ensures escalation ==> Carried(incidentId, [Notice(admin, old(clock))],
                                     mailer.outbox[|old(mailer.outbox)|..], db.contactAttempts[|old(db.contactAttempts)|..])
      ensures !escalation ==>
        Carried(incidentId, [Notice(admin, old(clock))] + CheckNotices(db.incidents, db.admins, db.serviceAdmins, incidentId, old(clock) + ESCALATION_DELAY_SECONDS),
                mailer.outbox[|old(mailer.outbox)|..], db.contactAttempts[|old(db.contactAttempts)|..])
    {
      var token := ExpiringToken(incidentId, admin.id, clock);
      var ok := mailer.Send(admin.contactValue, IncidentDetected, DownNotice("", token, Some(JWT_EXP_MINUTES)));
      db.InsertContactAttempt(incidentId, admin.id, "email", if ok then Sent else Failed, clock);
      ghost var mails, attempts := mailer.outbox, db.contactAttempts;
      ghost var m0, t0 := |old(mailer.outbox)|, |old(db.contactAttempts)|;
      assert Carried(incidentId, [Notice(admin, old(clock))], mails[m0..], attempts[t0..]) by {
        assert mails[m0..] == [mails[m0]] && attempts[t0..] == [attempts[t0]];
        CarriedSingle(incidentId, Notice(admin, old(clock)), mails[m0], attempts[t0]);
      }
      if !escalation {
        ScheduleEscalation(incidentId);
        ghost var check := CheckNotices(db.incidents, db.admins, db.serviceAdmins, incidentId, clock);
        CarriedChain(incidentId, [Notice(admin, old(clock))], check, [Notice(admin, old(clock))] + check,
                     old(mailer.outbox), mails, mailer.outbox, old(db.contactAttempts), attempts, db.contactAttempts);
      }
    }

    /** Sleeps for the delay, then mails every secondary unless the incident was acknowledged. */
    method ScheduleEscalation(incidentId: int)
      modifies mailer, db`contactAttempts, this`clock
      decreases 1
      ensures Extends(old(mailer.outbox), mailer.outbox) && Extends(old(db.contactAttempts), db.contactAttempts)
      ensures clock == old(clock) + ESCALATION_DELAY_SECONDS
      ensures Carried(incidentId, CheckNotices(db.incidents, db.admins, db.serviceAdmins, incidentId, clock),
                      mailer.outbox[|old(mailer.outbox)|..], db.contactAttempts[|old(db.contactAttempts)|..])
    {
      clock := clock + ESCALATION_DELAY_SECONDS;
      if IsIncidentAcknowledged(db.incidents, incidentId) {
        return;
      }
      var admins := GetAdminsByIncident(db.incidents, db.admins, db.serviceAdmins, incidentId, Secondary);
      for k := 0 to |admins|
        invariant Extends(old(mailer.outbox), mailer.outbox) && Extends(old(db.contactAttempts), db.contactAttempts)
        invariant clock == old(clock) + ESCALATION_DELAY_SECONDS
        invariant Carried(incidentId, Round(admins[..k], clock),
                          mailer.outbox[|old(mailer.outbox)|..], db.contactAttempts[|old(db.contactAttempts)|..])
      {
        ghost var mails, attempts := mailer.outbox, db.contactAttempts;
        NotifyAdmin(incidentId, admins[k], true);
        assert Round(admins[..k + 1], clock) == Round(admins[..k], clock) + [Notice(admins[k], clock)] by {
          assert admins[..k + 1][..k] == admins[..k];
        }
        CarriedChain(incidentId, Round(admins[..k], clock), [Notice(admins[k], clock)], Round(admins[..k + 1], clock),
                     old(mailer.outbox), mails, mailer.outbox, old(db.contactAttempts), attempts, db.contactAttempts);
      }
      assert admins[..|admins|] == admins;
    }

    /** Notifies the primaries in order; each first notification runs its inline escalation check. */
    method NotifyPrimaries(incidentId: int, primaries: seq<AdminContact>)
      modifies mailer, db`contactAttempts, this`clock
      ensures Extends(old(mailer.outbox), mailer.outbox) && Extends(old(db.contactAttempts), db.contactAttempts)
      ensures clock == old(clock) + |primaries| * ESCALATION_DELAY_SECONDS
      ensures Carried(incidentId,
                      Plan(primaries, GetAdminsByIncident(db.incidents, db.admins, db.serviceAdmins, incidentId, Secondary),
                           IsIncidentAcknowledged(db.incidents, incidentId), old(clock)),
                      mailer.outbox[|old(mailer.outbox)|..], db.contactAttempts[|old(db.contactAttempts)|..])
    {
      ghost var secondaries := GetAdminsByIncident(db.incidents, db.admins, db.serviceAdmins, incidentId, Secondary);
      ghost var acked := IsIncidentAcknowledged(db.incidents, incidentId);
      for k := 0 to |primaries|
        invariant Extends(old(mailer.outbox), mailer.outbox) && Extends(old(db.contactAttempts), db.contactAttempts)
        invariant clock == old(clock) + k * ESCALATION_DELAY_SECONDS
        invariant Carried(incidentId, Plan(primaries[..k], secondaries, acked, old(clock)),
                          mailer.outbox[|old(mailer.outbox)|..], db.contactAttempts[|old(db.contactAttempts)|..])
      {
        NotifyNext(incidentId, primaries, k, secondaries, acked, old(clock), old(mailer.outbox), old(db.contactAttempts));
      }
      assert primaries[..|primaries|] == primaries;
    }

    /** One turn of the loop over the primaries: the `k`-th primary, then its inline escalation check. */
    method NotifyNext(incidentId: int, primaries: seq<AdminContact>, k: nat, ghost secondaries: seq<AdminContact>,
                      ghost acked: bool, ghost start: int, ghost mails0: seq<Delivery>, ghost attempts0: seq<ContactAttempt>)
      modifies mailer, db`contactAttempts, this`clock
      requires k < |primaries|
      requires secondaries == GetAdminsByIncident(db.incidents, db.admins, db.serviceAdmins, incidentId, Secondary)
      requires acked == IsIncidentAcknowledged(db.incidents, incidentId)
      requires Extends(mails0, mailer.outbox) && Extends(attempts0, db.contactAttempts)
      requires clock == start + k * ESCALATION_DELAY_SECONDS
      requires Carried(incidentId, Plan(primaries[..k], secondaries, acked, start),
                       mailer.outbox[|mails0|..], db.contactAttempts[|attempts0|..])
      ensures Extends(mails0, mailer.outbox) && Extends(attempts0, db.contactAttempts)
      ensures clock == start + (k + 1) * ESCALATION_DELAY_SECONDS
      ensures Carried(incidentId, Plan(primaries[..k + 1], secondaries, acked, start),
                      mailer.outbox[|mails0|..], db.contactAttempts[|attempts0|..])
    {
      ghost var mails, attempts, at := mailer.outbox, db.contactAttempts, clock;
      NotifyAdmin(incidentId, primaries[k], false);
      PlanStep(incidentId, primaries, k, secondaries, acked, start, at,
               CheckNotices(db.incidents, db.admins, db.serviceAdmins, incidentId, at + ESCALATION_DELAY_SECONDS),
               mails0, mails, mailer.outbox, attempts0, attempts, db.contactAttempts);
    }

    /**
     * `_handle_incident_created`: a missing incident raises before anything
     * is sent; otherwise the primaries of the incident's service are notified
     * in order, each followed by its inline escalation check.
     */
    method HandleIncidentCreated(incidentId: int) returns (raised: bool)
      modifies mailer, db`contactAttempts, this`clock
      ensures raised <==> GetIncident(db.incidents, incidentId).None?
      ensures raised ==> mailer.outbox == old(mailer.outbox) && db.contactAttempts == old(db.contactAttempts)
                         && clock == old(clock)
      ensures !raised ==> Extends(old(mailer.outbox), mailer.outbox) && Extends(old(db.contactAttempts), db.contactAttempts)
      ensures !raised ==>
        clock == old(clock) + |Primaries(db.incidents, db.admins, db.serviceAdmins, incidentId)| * ESCALATION_DELAY_SECONDS
      ensures !raised ==>
        Carried(incidentId,
                Plan(Primaries(db.incidents, db.admins, db.serviceAdmins, incidentId),
                     GetAdminsByIncident(db.incidents, db.admins, db.serviceAdmins, incidentId, Secondary),
                     IsIncidentAcknowledged(db.incidents, incidentId), old(clock)),
                mailer.outbox[|old(mailer.outbox)|..], db.contactAttempts[|old(db.contactAttempts)|..])
    {
      var incident := GetIncident(db.incidents, incidentId);
      if incident.None? {
        return true;
      }
      raised := false;
      var primaries := GetAdmins(db.admins, db.serviceAdmins, incident.value.serviceId, Primary);
      NotifyPrimaries(incidentId, primaries);
    }

    /** `_handle_incident_resolved`: one "Incident resolved" mail per notified admin. */
    method HandleIncidentResolved(incidentId: int)
      modifies mailer
      ensures Extends(old(mailer.outbox), mailer.outbox)
      ensures ResolutionMails(GetNotifiedAdmins(db.admins, db.contactAttempts, incidentId),
                              mailer.outbox[|old(mailer.outbox)|..])
    {
      var admins := GetNotifiedAdmins(db.admins, db.contactAttempts, incidentId);
      for k := 0 to |admins|
        invariant Extends(old(mailer.outbox), mailer.outbox)
        invariant ResolutionMails(admins[..k], mailer.outbox[|old(mailer.outbox)|..])
      {
        ghost var mails := mailer.outbox;
        var ok := mailer.Send(admins[k].contactValue, IncidentResolved, BackOnline);
        ResolutionStep(admins, k, old(mailer.outbox), mails, ok, mailer.outbox);
      }
    }

    /** `handle_event`: only creation and resolution events have effects. */
    method HandleEvent(e: Event) returns (raised: bool)
      modifies mailer, db`contactAttempts, this`clock
      ensures raised <==> e.kind == CreateIncident && GetIncident(db.incidents, e.incidentId).None?
      ensures e.kind == CreateIncident && !raised ==>
        && Extends(old(mailer.outbox), mailer.outbox) && Extends(old(db.contactAttempts), db.contactAttempts)
        && clock == old(clock) + |Primaries(db.incidents, db.admins, db.serviceAdmins, e.incidentId)| * ESCALATION_DELAY_SECONDS
        && Carried(e.incidentId,
                   Plan(Primaries(db.incidents, db.admins, db.serviceAdmins, e.incidentId),
                        GetAdminsByIncident(db.incidents, db.admins, db.serviceAdmins, e.incidentId, Secondary),
                        IsIncidentAcknowledged(db.incidents, e.incidentId), old(clock)),
                   mailer.outbox[|old(mailer.outbox)|..], db.contactAttempts[|old(db.contactAttempts)|..])
      ensures e.kind.Other? || raised ==>
        mailer.outbox == old(mailer.outbox) && db.contactAttempts == old(db.contactAttempts) && clock == old(clock)
      ensures e.kind == ResolveIncident ==>
        && db.contactAttempts == old(db.contactAttempts) && clock == old(clock)
        && Extends(old(mailer.outbox), mailer.outbox)
        && ResolutionMails(GetNotifiedAdmins(db.admins, db.contactAttempts, e.incidentId), mailer.outbox[|old(mailer.outbox)|..])
    {
      raised := false;
      if e.kind == CreateIncident {
        raised := HandleIncidentCreated(e.incidentId);
      } else if e.kind == ResolveIncident {
        HandleIncidentResolved(e.incidentId);
      }
    }
  }
}

=== FILE: messages.dfy ===
/**
 * Records exchanged between the components: lifecycle events published by the
 * monitor and consumed by the notification engine, acknowledgment tokens, and
 * the e-mails handed to the mailer.
 */
module Messages {
  import opened Wrappers

  /** The `type` field of an event; any tag other than the two known ones is kept as `Other`. */
  datatype EventKind = CreateIncident | ResolveIncident | Other(tag: string)

  function KindTag(k: EventKind): string
  {
    match k
    case CreateIncident => "CREATE_INCIDENT"
    case ResolveIncident => "RESOLVE_INCIDENT"
    case Other(t) => t
  }

  /** Reads the `type` string of an event message. */
  function KindOfTag(tag: string): (k: EventKind)
    ensures KindTag(k) == tag
    ensures k == CreateIncident <==> tag == "CREATE_INCIDENT"
    ensures k == ResolveIncident <==> tag == "RESOLVE_INCIDENT"
  {
    if tag == "CREATE_INCIDENT" then CreateIncident
    else if tag == "RESOLVE_INCIDENT" then ResolveIncident
    else Other(tag)
  }

  /** An event message: `{type, service_id, incident_id, timestamp}`. */
  datatype Event = Event(kind: EventKind, serviceId: int, incidentId: int, timestamp: int)

  /** The claims of an acknowledgment token; `exp` is absent in tokens that never expire. */
  datatype AckToken = AckToken(incidentId: int, adminId: int, exp: Option<int>)

  datatype Subject = IncidentDetected | IncidentResolved

  /**
   * Mail bodies. A down notice names the service (the label is empty when the
   * name is unknown), carries the acknowledgment link built from the token and,
   * for expiring tokens, how many minutes the link stays valid.
   */
  datatype Body =
    | DownNotice(serviceLabel: string, token: AckToken, expiresInMinutes: Option<int>)
    | BackOnline

  /** One call of the mailer: recipient, content, and whether delivery succeeded. */
  datatype Delivery = Delivery(to: string, subject: Subject, body: Body, delivered: bool)

  /**
   * The mailer (SMTP). Delivery can fail for reasons outside the model, so the
   * outcome of each send is chosen freely; every call is logged in `outbox`.
   */
  class Mailer {
    var outbox: seq<Delivery>

    constructor ()
      ensures outbox == []
    {
      outbox := [];
    }

    method Send(to: string, subject: Subject, body: Body) returns (ok: bool)
      modifies this
      ensures outbox == old(outbox) + [Delivery(to, subject, body, ok)]
    {
      ok :| true;
      outbox := outbox + [Delivery(to, subject, body, ok)];
    }
  }
}

=== FILE: models.dfy ===
/**
 * The persistent entities of the platform: services, administrators, the
 * service/administrator role links, incidents, contact attempts and ping
 * failures, with the defaults and check constraints of their table
 * definitions. Timestamps are whole seconds.
 */
module Models {
  import opened Wrappers

  /** Incident lifecycle; the check constraint admits exactly these three values. */
  datatype Status = Registered | Acknowledged | Resolved

  /** Role of an administrator on a service; the check constraint admits exactly these two. */
  datatype Role = Primary | Secondary

  /** Outcome stored in `contact_attempts.result`. */
  datatype AttemptResult = Sent | Failed | Acked

  function StatusName(s: Status): string
  {
    match s
    case Registered => "registered"
    case Acknowledged => "acknowledged"
    case Resolved => "resolved"
  }

  /** Reads a stored status string; `None` is a value the check constraint rejects. */
  function ParseStatus(x: string): (r: Option<Status>)
    ensures forall s :: r == Some(s) <==> x == StatusName(s)
  {
    if x == "registered" then Some(Registered)
    else if x == "acknowledged" then Some(Acknowledged)
    else if x == "resolved" then Some(Resolved)
    else None
  }

  function RoleName(r: Role): string
  {
    match r
    case Primary => "primary"
    case Secondary => "secondary"
  }

  /** Reads a stored role string; `None` is a value the check constraint rejects. */
  function ParseRole(x: string): (r: Option<Role>)
    ensures forall role :: r == Some(role) <==> x == RoleName(role)
  {
    if x == "primary" then Some(Primary)
    else if x == "secondary" then Some(Secondary)
    else None
  }

  function AttemptResultName(r: AttemptResult): string
  {
    match r
    case Sent => "sent"
    case Failed => "failed"
    case Acked => "acknowledged"
  }

  datatype Service = Service(
    id: int,
    name: string,
    ip: string,
    frequencySeconds: int,
    alertingWindowNpings: int,
    failureThreshold: int,
    nextAt: int)

  datatype Admin = Admin(id: int, name: string, contactType: string, contactValue: string)

  /** A row of `service_admins`; its primary key is the pair (serviceId, adminId). */
  datatype ServiceAdmin = ServiceAdmin(serviceId: int, adminId: int, role: Role)

  datatype Incident = Incident(
    id: int,
    serviceId: int,
    startedAt: int,
    endedAt: Option<int>,
    status: Status)

  /** A row of `contact_attempts`: incident, admin, time and channel are mandatory, result and response time nullable. */
  datatype ContactAttempt = ContactAttempt(
    incidentId: int,
    adminId: int,
    attemptedAt: int,
    channel: string,
    result: Option<AttemptResult>,
    responseAt: Option<int>)

  datatype PingFailure = PingFailure(serviceId: int, failedAt: int)

  const DEFAULT_FAILURE_THRESHOLD := 3
  /** Seconds added to the module load time for the `next_at` column default. */
  const NEXT_AT_DEFAULT_OFFSET := 60

  /**
   * A new `services` row. Omitted columns take their defaults: a threshold of
   * three, and a `next_at` computed once when the model module is loaded
   * (`loadedAt`), not when the row is created.
   */
  function NewService(id: int, name: string, ip: string, frequencySeconds: int,
                      alertingWindowNpings: int, threshold: Option<int>,
                      nextAt: Option<int>, loadedAt: int): (s: Service)
    ensures s.id == id && s.name == name && s.ip == ip
    ensures s.frequencySeconds == frequencySeconds && s.alertingWindowNpings == alertingWindowNpings
    ensures s.failureThreshold == (if threshold.Some? then threshold.value else 3)
    ensures s.nextAt == (if nextAt.Some? then nextAt.value else loadedAt + 60)
  {
    Service(id, name, ip, frequencySeconds, alertingWindowNpings,
            match threshold case Some(t) => t case None => DEFAULT_FAILURE_THRESHOLD,
            match nextAt case Some(t) => t case None => loadedAt + NEXT_AT_DEFAULT_OFFSET)
  }

  /** A new `incidents` row: status defaults to registered, no end time. */
  function NewIncident(id: int, serviceId: int, startedAt: int): (i: Incident)
    ensures i.id == id && i.serviceId == serviceId && i.startedAt == startedAt
    ensures i.status == Registered && i.endedAt == None
  {
    Incident(id, serviceId, startedAt, None, Registered)
  }

  /** The primary key of `service_admins`: no (service, admin) pair occurs twice. */
  ghost predicate LinkKeysUnique(links: seq<ServiceAdmin>)
  {
    forall i, j :: 0 <= i < j < |links| ==> !SameLinkKey(links[i], links[j])
  }

  /** Two link rows with the same (service, admin) key. */
  predicate SameLinkKey(a: ServiceAdmin, b: ServiceAdmin)
  {
    a.serviceId == b.serviceId && a.adminId == b.adminId
  }

  /** The primary key of `incidents`. */
  ghost predicate IncidentIdsUnique(incidents: seq<Incident>)
  {
    forall i, j :: 0 <= i < j < |incidents| ==> incidents[i].id != incidents[j].id
  }

  /** An incident has an end time exactly when it is resolved. */
  ghost predicate EndedIffResolved(incidents: seq<Incident>)
  {
    forall i :: 0 <= i < |incidents| ==> (incidents[i].endedAt.Some? <==> incidents[i].status == Resolved)
  }

  predicate IsOpen(i: Incident)
  {
    i.status == Registered || i.status == Acknowledged
  }

  /** Status never moves back: the relation between the status before and after an update. */
  predicate StatusStep(before: Status, after: Status)
  {
    before == after || (before == Registered) || (before == Acknowledged && after == Resolved)
  }
}

=== FILE: monitoring.dfy ===
/**
 * The first monitor variant: one object per monitored address, keeping the
 * timestamps of recent probe failures in memory (a double-ended queue) and
 * publishing a create-incident job once the failures inside the alerting
 * window reach the threshold.
 */
module Monitoring {
  import opened Models
  import opened Probe

  /** The job handed to the queue publisher; the service is identified by its address. */
  datatype Job = CreateIncidentJob(serviceIp: string, startedAt: int, status: Status)

  ghost predicate Sorted(s: seq<int>)
  {
    forall i, j :: 0 <= i < j < |s| ==> s[i] <= s[j]
  }

  /** The failures of `s` that lie inside the window of `window` seconds ending at `now`, in order. */
  function Fresh(s: seq<int>, now: int, window: int): (r: seq<int>)
    ensures |r| <= |s|
    ensures forall t :: t in r <==> t in s && now - t <= window
  {
    if s == [] then []
    else (if now - s[0] <= window then [s[0]] else []) + Fresh(s[1..], now, window)
  }

  /**
   * The queue after cleanup at time `now`: leading entries older than the
   * window are dropped, one at a time from the front, until the front entry
   * is recent enough.
   */
  function Cleaned(s: seq<int>, now: int, window: int): (r: seq<int>)
    ensures |r| <= |s| && r == s[|s| - |r|..]
    ensures r != [] ==> now - r[0] <= window
    ensures forall k :: 0 <= k < |s| - |r| ==> now - s[k] > window
  {
    if s != [] && now - s[0] > window then Cleaned(s[1..], now, window) else s
  }

  lemma {:induction false} FreshAppend(a: seq<int>, b: seq<int>, now: int, window: int)
    ensures Fresh(a + b, now, window) == Fresh(a, now, window) + Fresh(b, now, window)
  {
    if a == [] {
      assert a + b == b;
    } else {
      var head := if now - a[0] <= window then [a[0]] else [];
      assert (a + b)[0] == a[0];
      assert (a + b)[1..] == a[1..] + b;
      FreshAppend(a[1..], b, now, window);
      calc {
        Fresh(a + b, now, window);
        head + Fresh(a[1..] + b, now, window);
        head + (Fresh(a[1..], now, window) + Fresh(b, now, window));
        (head + Fresh(a[1..], now, window)) + Fresh(b, now, window);
      }
    }
  }

  lemma {:induction false} FreshOfSorted(s: seq<int>, now: int, window: int)
    requires Sorted(s)
    ensures Sorted(Fresh(s, now, window))
  {
    if s != [] {
      FreshOfSorted(s[1..], now, window);
      var tail := Fresh(s[1..], now, window);
      forall t | t in tail ensures s[0] <= t {
        var k :| 0 <= k < |s[1..]| && s[1..][k] == t;
        assert s[1..][k] == s[k + 1];
      }
      if now - s[0] <= window {
        SortedCons(s[0], tail);
      }
    }
  }

  lemma SortedCons(x: int, s: seq<int>)
    requires Sorted(s) && forall t :: t in s ==> x <= t
    ensures Sorted([x] + s)
  {
    forall i, j | 0 <= i < j < |[x] + s| ensures ([x] + s)[i] <= ([x] + s)[j] {
      if i > 0 {
        assert ([x] + s)[i] == s[i - 1] && ([x] + s)[j] == s[j - 1];
      } else {
        assert ([x] + s)[j] == s[j - 1];
        assert s[j - 1] in s;
      }
    }
  }

  lemma SortedSnoc(s: seq<int>, x: int)
    requires Sorted(s) && forall t :: t in s ==> t <= x
    ensures Sorted(s + [x])
  {
    forall i, j | 0 <= i < j < |s + [x]| ensures (s + [x])[i] <= (s + [x])[j] {
      assert (s + [x])[i] == s[i];
      if j == |s| {
        assert s[i] in s;
      } else {
        assert (s + [x])[j] == s[j];
      }
    }
  }

  /** In a non-decreasing queue whose front is recent, every entry is recent. */
  lemma {:induction false} FreshKeepsAll(s: seq<int>, now: int, window: int)
    requires Sorted(s) && s != [] && now - s[0] <= window
    ensures Fresh(s, now, window) == s
  {
    if |s| > 1 {
      FreshKeepsAll(s[1..], now, window);
      assert [s[0]] + s[1..] == s;
    }
  }

  /** On a non-decreasing queue, cleanup keeps exactly the failures inside the window. */
  lemma {:induction false} CleanedIsFresh(s: seq<int>, now: int, window: int)
    requires Sorted(s)
    ensures Cleaned(s, now, window) == Fresh(s, now, window)
  {
    if s != [] {
      if now - s[0] > window {
        CleanedIsFresh(s[1..], now, window);
      } else {
        FreshKeepsAll(s, now, window);
      }
    }
  }

  /** Moving the end of the window forward only removes more entries. */
  lemma {:induction false} FreshLater(s: seq<int>, earlier: int, later: int, window: int)
    requires earlier <= later
    ensures Fresh(Fresh(s, earlier, window), later, window) == Fresh(s, later, window)
  {
    if s != [] {
      FreshLater(s[1..], earlier, later, window);
      var head := if earlier - s[0] <= window then [s[0]] else [];
      FreshAppend(head, Fresh(s[1..], earlier, window), later, window);
    }
  }

  /**
   * Recording a failure at `now` into a non-decreasing queue of past failures
   * keeps the queue non-decreasing and leaves only entries inside the window.
   */
  lemma RecordKeepsWindow(s: seq<int>, now: int, window: int)
    requires Sorted(s) && forall t :: t in s ==> t <= now
    ensures Sorted(Cleaned(s + [now], now, window))
    ensures forall t :: t in Cleaned(s + [now], now, window) ==> now - t <= window
  {
    SortedSnoc(s, now);
    CleanedIsFresh(s + [now], now, window);
    FreshOfSorted(s + [now], now, window);
  }

  /** The queue left by recording the failures `ts` one after another, each at its own time. */
  function Replay(ts: seq<int>, window: int): seq<int>
  {
    if ts == [] then []
    else Cleaned(Replay(ts[..|ts| - 1], window) + [ts[|ts| - 1]], ts[|ts| - 1], window)
  }

  lemma ReplaySnoc(p: seq<int>, t: int, window: int)
    ensures Replay(p + [t], window) == Cleaned(Replay(p, window) + [t], t, window)
  {
    assert (p + [t])[..|p|] == p;
  }

  lemma SortedSplit(p: seq<int>, t: int)
    requires Sorted(p + [t])
    ensures Sorted(p) && forall u :: u in p ==> u <= t
  {
    forall i, j | 0 <= i < j < |p| ensures p[i] <= p[j] {
      assert p[i] == (p + [t])[i] && p[j] == (p + [t])[j];
    }
    forall u | u in p ensures u <= t {
      var k :| 0 <= k < |p| && p[k] == u;
      assert (p + [t])[k] == u && (p + [t])[|p|] == t;
    }
  }

  /** One more failure at `t`, no earlier than all before it, on a queue that was exact. */
  lemma ReplayStep(p: seq<int>, q: seq<int>, t: int, window: int)
    requires p != [] && Sorted(p) && forall u :: u in p ==> u <= t
    requires q == Fresh(p, p[|p| - 1], window)
    ensures Cleaned(q + [t], t, window) == Fresh(p + [t], t, window)
  {
    var l := p[|p| - 1];
    assert l in p;
    FreshOfSorted(p, l, window);
    forall u | u in q ensures u <= t {
    }
    SortedSnoc(q, t);
    calc {
      Cleaned(q + [t], t, window);
      { CleanedIsFresh(q + [t], t, window); }
      Fresh(q + [t], t, window);
      { FreshAppend(q, [t], t, window); }
      Fresh(q, t, window) + Fresh([t], t, window);
      { FreshLater(p, l, t, window); }
      Fresh(p, t, window) + Fresh([t], t, window);
      { FreshAppend(p, [t], t, window); }
      Fresh(p + [t], t, window);
    }
  }

  /**
   * For failures recorded in time order, the queue after the last one holds
   * exactly the recorded failures inside the window ending at the last one.
   */
  lemma {:induction false} ReplayIsFresh(ts: seq<int>, window: int)
    requires Sorted(ts) && ts != []
    ensures Replay(ts, window) == Fresh(ts, ts[|ts| - 1], window)
  {
    var p, t := ts[..|ts| - 1], ts[|ts| - 1];
    assert ts == p + [t];
    ReplaySnoc(p, t, window);
    SortedSplit(p, t);
    if p == [] {
      assert Replay(p, window) + [t] == [t];
      assert Sorted([t]);
      CleanedIsFresh([t], t, window);
    } else {
      ReplayIsFresh(p, window);
      ReplayStep(p, Replay(p, window), t, window);
    }
  }

  lemma ReplayIsFreshAll(window: int)
    ensures forall ts :: Sorted(ts) && ts != [] ==> Replay(ts, window) == Fresh(ts, ts[|ts| - 1], window)
  {
    forall ts | Sorted(ts) && ts != [] ensures Replay(ts, window) == Fresh(ts, ts[|ts| - 1], window) {
      ReplayIsFresh(ts, window);
    }
  }

  class IpStatusCollector {
    const ip: string
    const frequency: int
    /** The alerting window in seconds. */
    const alertingWindow: int
    const failureThreshold: int
    /** Timestamps of recorded failures, oldest first. */
    var failures: seq<int>
    /** Jobs handed to the queue publisher, in order. */
    var published: seq<Job>

    /** The window is given in pings and stored in seconds. */
    constructor (ip: string, frequency: int, alertingWindowPings: int, failureThreshold: int)
      ensures this.ip == ip && this.frequency == frequency && this.failureThreshold == failureThreshold
      ensures alertingWindow == alertingWindowPings * frequency
      ensures failures == [] && published == []
    {
      this.ip := ip;
      this.frequency := frequency;
      this.alertingWindow := alertingWindowPings * frequency;
      this.failureThreshold := failureThreshold;
      failures := [];
      published := [];
    }

    /** Appends the failure time, then cleans up relative to it. */
    method RecordFailure(now: int)
      modifies this`failures
      ensures failures == Cleaned(old(failures) + [now], now, alertingWindow)
      ensures alertingWindow >= 0 ==> |failures| > 0 && failures[|failures| - 1] == now
    {
      failures := failures + [now];
      ghost var s := failures;
      CleanupOldFailures(now);
      if alertingWindow >= 0 {
        assert now - s[|s| - 1] <= alertingWindow;
      }
    }

    /** Pops entries from the front while the front is older than the window. */
    method CleanupOldFailures(now: int)
      modifies this`failures
      ensures failures == Cleaned(old(failures), now, alertingWindow)
    {
      while failures != [] && now - failures[0] > alertingWindow
        invariant Cleaned(failures, now, alertingWindow) == Cleaned(old(failures), now, alertingWindow)
        decreases |failures|
      {
        failures := failures[1..];
      }
    }

    /**
     * The threshold test on the queue: whenever the queue is the one left by
     * recording failures in time order, it fires exactly when at least the
     * threshold of them lie inside the window ending at the latest one.
     */
    predicate ShouldTriggerIncident(): (r: bool)
      reads this
      ensures forall ts :: Sorted(ts) && ts != [] && failures == Replay(ts, alertingWindow) ==>
                (r <==> |Fresh(ts, ts[|ts| - 1], alertingWindow)| >= failureThreshold)
    {
      ReplayIsFreshAll(alertingWindow);
      |failures| >= failureThreshold
    }

    method PublishIncident(now: int)
      modifies this`published
      ensures published == old(published) + [CreateIncidentJob(ip, now, Registered)]
    {
      published := published + [CreateIncidentJob(ip, now, Registered)];
    }

    /**
     * One tick. A successful check changes nothing (the lookup of an existing
     * incident always finds none); a failed one records the failure and
     * publishes a job when the threshold is reached.
     */
    method RunOnce(outcome: HttpOutcome, now: int)
      modifies this`failures, this`published
      ensures CheckSucceeds(outcome) ==> failures == old(failures) && published == old(published)
      ensures !CheckSucceeds(outcome) ==> failures == Cleaned(old(failures) + [now], now, alertingWindow)
      ensures !CheckSucceeds(outcome) ==>
        published == old(published) + (if |failures| >= failureThreshold then [CreateIncidentJob(ip, now, Registered)] else [])
    {
      if !CheckSucceeds(outcome) {
        RecordFailure(now);
        if ShouldTriggerIncident() {
          PublishIncident(now);
        }
      }
    }
  }
}

=== FILE: notifier_config.dfy ===
/** The configuration of the notification service: SMTP settings only; the token secret is not checked. */
module NotifierConfig {
  import opened Wrappers
  import opened Settings

  const REQUIRED: seq<string> := ["SMTP_HOST", "SMTP_USERNAME", "SMTP_PASSWORD"]

  /** `validate`: fails exactly when one of the three SMTP variables is unset or empty. */
  function Validate(env: Env): (r: Outcome<string>)
    ensures r.Pass? <==> Present(env, "SMTP_HOST") && Present(env, "SMTP_USERNAME") && Present(env, "SMTP_PASSWORD")
    ensures r.Fail? ==> r.error == MISSING_PREFIX + Join(MissingNames(REQUIRED, env), ", ")
  {
    CheckRequired(REQUIRED, env)
  }

  /** The token secret plays no part: setting, changing or removing it leaves the verdict and the message alone. */
  lemma SecretIgnored(env: Env, secret: string)
    ensures Validate(env["JWT_SECRET" := secret]) == Validate(env)
    ensures Validate(env - {"JWT_SECRET"}) == Validate(env)
  {
    forall n | n in REQUIRED ensures Present(env["JWT_SECRET" := secret], n) == Present(env, n)
                                  && Present(env - {"JWT_SECRET"}, n) == Present(env, n) {
    }
    MissingSame(REQUIRED, env, env["JWT_SECRET" := secret]);
    MissingSame(REQUIRED, env, env - {"JWT_SECRET"});
  }

  lemma {:induction false} MissingSame(names: seq<string>, a: Env, b: Env)
    requires forall n :: n in names ==> Present(a, n) == Present(b, n)
    ensures MissingNames(names, a) == MissingNames(names, b)
  {
    if names != [] {
      assert names[0] in names;
      MissingSame(names[1..], a, b);
    }
  }
}

=== FILE: probe.dfy ===
/** The reachability check performed once per tick by both monitor variants. */
module Probe {

  /** What an HTTP GET against the service produced: a status code, or a raised request error. */
  datatype HttpOutcome = Response(statusCode: int) | RequestError

  /** A check succeeds exactly when a response arrived with a status code below 400. */
  predicate CheckSucceeds(o: HttpOutcome)
  {
    o.Response? && o.statusCode < 400
  }

  /** Success is downward closed in the status code, and errors are never success. */
  lemma CheckThreshold(code: int, other: int)
    ensures CheckSucceeds(Response(code)) <==> code <= 399
    ensures CheckSucceeds(Response(code)) && other <= code ==> CheckSucceeds(Response(other))
    ensures !CheckSucceeds(RequestError)
    ensures CheckSucceeds(Response(200)) && !CheckSucceeds(Response(500)) && !CheckSucceeds(Response(400))
  {
  }
}

=== FILE: settings.dfy ===
/**
 * Environment-driven settings shared by both configuration files: the
 * required-variable check and the SMTP settings with their defaults. The
 * environment is a map from variable names to values; an unset variable is
 * a missing key.
 */
module Settings {
  import opened Wrappers

  type Env = map<string, string>

  const MISSING_PREFIX := "Missing required environment variables: "
  const DEFAULT_SMTP_PORT := 587

  function Getenv(env: Env, name: string): Option<string>
  {
    if name in env then Some(env[name]) else None
  }

  /** The variable is set to a non-empty value (an unset or empty one counts as missing). */
  predicate Present(env: Env, name: string)
  {
    name in env && env[name] != ""
  }

  /** The names whose variable is missing, in the order given. */
  function MissingNames(names: seq<string>, env: Env): (r: seq<string>)
    ensures |r| <= |names|
  {
    if names == [] then []
    else (if Present(env, names[0]) then [] else [names[0]]) + MissingNames(names[1..], env)
  }

  /** A name is reported missing exactly when it is one of the names and its variable is unset or empty. */
  lemma {:induction false} MissingNamesMembers(names: seq<string>, env: Env)
    ensures forall n :: n in MissingNames(names, env) <==> n in names && !Present(env, n)
  {
    if names != [] {
      MissingNamesMembers(names[1..], env);
      assert names == [names[0]] + names[1..];
    }
  }

  /** The filter keeps the order of the names: missing names of a concatenation are concatenated. */
  lemma {:induction false} MissingNamesAppend(a: seq<string>, b: seq<string>, env: Env)
    ensures MissingNames(a + b, env) == MissingNames(a, env) + MissingNames(b, env)
  {
    if a == [] {
      assert a + b == b;
    } else {
      assert (a + b)[0] == a[0] && (a + b)[1..] == a[1..] + b;
      MissingNamesAppend(a[1..], b, env);
    }
  }

  /** The number of characters in all the parts together. */
  ghost function TotalLength(parts: seq<string>): nat
  {
    if parts == [] then 0 else |parts[0]| + TotalLength(parts[1..])
  }

  /**
   * `sep.join(parts)`. The first three clauses are the definition of the join
   * itself; the length and the prefix are what callers rely on.
   */
  function Join(parts: seq<string>, sep: string): (r: string)
    ensures parts == [] ==> r == ""
    ensures |parts| == 1 ==> r == parts[0]
    ensures |parts| > 1 ==> r == parts[0] + sep + Join(parts[1..], sep)
    ensures parts != [] ==> |r| == TotalLength(parts) + (|parts| - 1) * |sep|
    ensures parts != [] ==> r[..|parts[0]|] == parts[0]
  {
    if parts == [] then "" else if |parts| == 1 then parts[0] else parts[0] + sep + Join(parts[1..], sep)
  }

  /** The check both `validate` functions perform: pass exactly when every name is present, else name the missing ones. */
  function CheckRequired(names: seq<string>, env: Env): (r: Outcome<string>)
    ensures r.Pass? <==> forall n :: n in names ==> Present(env, n)
    ensures r.Fail? ==> r.error == MISSING_PREFIX + Join(MissingNames(names, env), ", ")
  {
    MissingNamesMembers(names, env);
    var missing := MissingNames(names, env);
    if missing == [] then Pass
    else
      assert missing[0] in missing;
      Fail(MISSING_PREFIX + Join(missing, ", "))
  }

  predicate IsDigit(c: char)
  {
    '0' <= c <= '9'
  }

  predicate AllDigits(s: string)
  {
    forall i :: 0 <= i < |s| ==> IsDigit(s[i])
  }

  /** The value of a string of decimal digits, most significant first. */
  function DigitsValue(s: string): nat
    requires AllDigits(s)
  {
    if s == [] then 0 else DigitsValue(s[..|s| - 1]) * 10 + (s[|s| - 1] as int - '0' as int)
  }

  predicate IsSign(c: char)
  {
    c == '+' || c == '-'
  }

  /** An optional sign followed by one or more decimal digits; anything else is rejected. */
  function ParseDecimal(s: string): (r: Option<int>)
    ensures r.Some? <==> (s != [] && AllDigits(s)) || (|s| > 1 && IsSign(s[0]) && AllDigits(s[1..]))
    ensures s != [] && AllDigits(s) ==> r == Some(DigitsValue(s))
    ensures |s| > 1 && IsSign(s[0]) && AllDigits(s[1..]) ==>
              r == Some(if s[0] == '-' then 0 - DigitsValue(s[1..]) else DigitsValue(s[1..]))
  {
    if s == [] then None
    else if s[0] == '-' || s[0] == '+' then
      var digits := s[1..];
      if digits != [] && AllDigits(digits) then
        var v: int := DigitsValue(digits);
        Some(if s[0] == '-' then -v else v)
      else None
    else if AllDigits(s) then Some(DigitsValue(s))
    else None
  }

  function DigitChar(d: int): char
    requires 0 <= d < 10
  {
    ('0' as int + d) as char
  }

  /** The shortest decimal spelling of `n`. */
  function DigitsOf(n: nat): (s: string)
    ensures s != [] && AllDigits(s) && DigitsValue(s) == n
  {
    if n < 10 then
      var s := [DigitChar(n)];
      assert s[..0] == [];
      s
    else
      var s := DigitsOf(n / 10) + [DigitChar(n % 10)];
      assert s[..|s| - 1] == DigitsOf(n / 10);
      s
  }

  function FormatDecimal(n: int): string
  {
    if n < 0 then "-" + DigitsOf(-n) else DigitsOf(n)
  }

  /** Parsing reads back every formatted integer. */
  lemma ParseFormat(n: int)
    ensures ParseDecimal(FormatDecimal(n)) == Some(n)
  {
    if n < 0 {
      assert ("-" + DigitsOf(-n))[1..] == DigitsOf(-n);
    }
  }

  lemma DefaultPortParses()
    ensures ParseDecimal("587") == Some(DEFAULT_SMTP_PORT)
  {
    assert "587"[..2] == "58" && "58"[..1] == "5" && "5"[..0] == "";
  }

  /** The SMTP settings; PORT is an integer and the other fields may be unset. */
  datatype SmtpConfig = SmtpConfig(host: Option<string>, port: int, username: Option<string>,
                                   password: Option<string>, sender: Option<string>)

  /**
   * `SMTPConfig`: PORT is SMTP_PORT read as an integer, 587 when unset (a
   * value that is not an integer is an error); FROM is SMTP_FROM, or the
   * username when SMTP_FROM is unset.
   */
  function LoadSmtp(env: Env): (r: Result<SmtpConfig, string>)
    ensures "SMTP_PORT" !in env ==> r.Success? && r.value.port == DEFAULT_SMTP_PORT
    ensures "SMTP_PORT" in env ==>
      (r.Success? <==> ParseDecimal(env["SMTP_PORT"]).Some?)
      && (r.Success? ==> r.value.port == ParseDecimal(env["SMTP_PORT"]).value)
    ensures r.Success? ==>
      && r.value.host == Getenv(env, "SMTP_HOST") && r.value.username == Getenv(env, "SMTP_USERNAME")
      && r.value.password == Getenv(env, "SMTP_PASSWORD")
      && r.value.sender == if "SMTP_FROM" in env then Some(env["SMTP_FROM"]) else Getenv(env, "SMTP_USERNAME")
  {
    var portText := if "SMTP_PORT" in env then env["SMTP_PORT"] else "587";
    DefaultPortParses();
    match ParseDecimal(portText)
    case None => Failure("invalid literal for int() with base 10: '" + portText + "'")
    case Some(port) =>
      var username := Getenv(env, "SMTP_USERNAME");
      Success(SmtpConfig(Getenv(env, "SMTP_HOST"), port, username, Getenv(env, "SMTP_PASSWORD"),
                         if "SMTP_FROM" in env then Some(env["SMTP_FROM"]) else username))
  }
}

=== FILE: store.dfy ===
/**
 * The relational store: one sequence of rows per table. Queries are functions
 * over the tables (filters and joins, in table order where SQL leaves the
 * order open); writes are methods of `Database` that replace the affected
 * tables and leave the others untouched.
 */
module Store {
  import opened Wrappers
  import opened Models

  /** The `(id, contact_value)` projection of an admin that the queries return. */
  datatype AdminContact = AdminContact(id: int, contactValue: string)

  function Contact(a: Admin): AdminContact
  {
    AdminContact(a.id, a.contactValue)
  }

  // ---------------------------------------------------------------- queries

  /** `get_incident`: the first row with this id, or `None` when there is none. */
  function GetIncident(incidents: seq<Incident>, incidentId: int): (r: Option<Incident>)
    ensures r.Some? ==> r.value in incidents && r.value.id == incidentId
    ensures r.None? <==> forall i :: i in incidents ==> i.id != incidentId
  {
    if incidents == [] then None
    else if incidents[0].id == incidentId then Some(incidents[0])
    else GetIncident(incidents[1..], incidentId)
  }

  /** With unique incident ids, the lookup finds the one row carrying the id. */
  lemma {:induction false} GetIncidentUnique(incidents: seq<Incident>, inc: Incident)
    requires IncidentIdsUnique(incidents) && inc in incidents
    ensures GetIncident(incidents, inc.id) == Some(inc)
  {
    if incidents[0] != inc {
      assert inc in incidents[1..];
      var k :| 0 <= k < |incidents| && incidents[k] == inc;
      assert incidents[0].id != inc.id;
      assert IncidentIdsUnique(incidents[1..]) by {
        forall i, j | 0 <= i < j < |incidents[1..]|
          ensures incidents[1..][i].id != incidents[1..][j].id
        {
          assert incidents[1..][i] == incidents[i + 1] && incidents[1..][j] == incidents[j + 1];
        }
      }
      GetIncidentUnique(incidents[1..], inc);
    }
  }

  /** The role links of one service with one role, in table order. */
  function LinksFor(links: seq<ServiceAdmin>, serviceId: int, role: Role): (r: seq<ServiceAdmin>)
    ensures forall l :: l in r <==> l in links && l.serviceId == serviceId && l.role == role
  {
    if links == [] then []
    else (if links[0].serviceId == serviceId && links[0].role == role then [links[0]] else [])
         + LinksFor(links[1..], serviceId, role)
  }

  /** The admins carrying id `adminId`, projected, in table order. */
  function ContactsWithId(admins: seq<Admin>, adminId: int): (r: seq<AdminContact>)
    ensures forall c :: c in r <==> exists a :: a in admins && a.id == adminId && Contact(a) == c
  {
    if admins == [] then []
    else (if admins[0].id == adminId then [Contact(admins[0])] else [])
         + ContactsWithId(admins[1..], adminId)
  }

  /** `admins JOIN service_admins ON sa.admin_id = a.id`, one output row per matching pair. */
  function JoinLinks(links: seq<ServiceAdmin>, admins: seq<Admin>): (r: seq<AdminContact>)
    ensures forall c :: c in r <==>
      exists l, a :: l in links && a in admins && l.adminId == a.id && Contact(a) == c
  {
    if links == [] then []
    else ContactsWithId(admins, links[0].adminId) + JoinLinks(links[1..], admins)
  }

  /** `get_admins`: the admins linked to the service with the given role. */
  function GetAdmins(admins: seq<Admin>, links: seq<ServiceAdmin>, serviceId: int, role: Role): (r: seq<AdminContact>)
    ensures forall c :: c in r <==>
      exists l, a :: l in links && a in admins && l.serviceId == serviceId && l.role == role
                     && l.adminId == a.id && Contact(a) == c
  {
    JoinLinks(LinksFor(links, serviceId, role), admins)
  }

  function AdminsForIncidentRows(rows: seq<Incident>, admins: seq<Admin>, links: seq<ServiceAdmin>,
                                 incidentId: int, role: Role): (r: seq<AdminContact>)
    ensures forall c :: c in r <==>
      exists i :: i in rows && i.id == incidentId && c in GetAdmins(admins, links, i.serviceId, role)
    ensures (forall i :: i in rows ==> i.id != incidentId) ==> r == []
  {
    if rows == [] then []
    else (if rows[0].id == incidentId then GetAdmins(admins, links, rows[0].serviceId, role) else [])
         + AdminsForIncidentRows(rows[1..], admins, links, incidentId, role)
  }

  /** `get_admins_by_incident`: the admins with the role on the service of the incident. */
  function GetAdminsByIncident(incidents: seq<Incident>, admins: seq<Admin>, links: seq<ServiceAdmin>,
                               incidentId: int, role: Role): (r: seq<AdminContact>)
    ensures forall c :: c in r <==>
      exists i :: i in incidents && i.id == incidentId && c in GetAdmins(admins, links, i.serviceId, role)
    ensures GetIncident(incidents, incidentId).None? ==> r == []
  {
    AdminsForIncidentRows(incidents, admins, links, incidentId, role)
  }

  /** With unique incident ids, the admins of an incident are those of its service. */
  lemma AdminsByIncidentOfService(incidents: seq<Incident>, admins: seq<Admin>, links: seq<ServiceAdmin>,
                                  inc: Incident, role: Role)
    requires IncidentIdsUnique(incidents) && inc in incidents
    ensures forall c :: c in GetAdminsByIncident(incidents, admins, links, inc.id, role)
                   <==> c in GetAdmins(admins, links, inc.serviceId, role)
  {
    forall i | i in incidents && i.id == inc.id ensures i == inc {
      var a :| 0 <= a < |incidents| && incidents[a] == i;
      var b :| 0 <= b < |incidents| && incidents[b] == inc;
      assert a == b;
    }
  }

  function ServiceNameOf(services: seq<Service>, serviceId: int): (r: Option<string>)
    ensures r.Some? ==> exists s :: s in services && s.id == serviceId && s.name == r.value
    ensures r.None? <==> forall s :: s in services ==> s.id != serviceId
  {
    if services == [] then None
    else if services[0].id == serviceId then Some(services[0].name)
    else ServiceNameOf(services[1..], serviceId)
  }

  /** `get_service_by_incident`: the name of the incident's service, or `None` when the join is empty. */
  function GetServiceByIncident(incidents: seq<Incident>, services: seq<Service>, incidentId: int): (r: Option<string>)
    ensures r.Some? ==> exists i, s :: i in incidents && s in services && i.id == incidentId
                                      && s.id == i.serviceId && s.name == r.value
    ensures r.None? <==> forall i, s :: i in incidents && s in services && i.id == incidentId ==> s.id != i.serviceId
  {
    if incidents == [] then None
    else if incidents[0].id == incidentId && ServiceNameOf(services, incidents[0].serviceId).Some? then
      ServiceNameOf(services, incidents[0].serviceId)
    else GetServiceByIncident(incidents[1..], services, incidentId)
  }

  /** `is_incident_acknowledged`: the incident exists and its status is exactly acknowledged. */
  function IsIncidentAcknowledged(incidents: seq<Incident>, incidentId: int): (r: bool)
    ensures r ==> exists i :: i in incidents && i.id == incidentId && i.status == Acknowledged
    ensures (forall i :: i in incidents ==> i.id != incidentId) ==> !r
  {
    match GetIncident(incidents, incidentId)
    case None => false
    case Some(i) => i.status == Acknowledged
  }

  /** With unique ids: acknowledged exactly when the incident's row has status acknowledged. */
  lemma AcknowledgedIffStatus(incidents: seq<Incident>, inc: Incident)
    requires IncidentIdsUnique(incidents) && inc in incidents
    ensures IsIncidentAcknowledged(incidents, inc.id) <==> inc.status == Acknowledged
  {
    GetIncidentUnique(incidents, inc);
  }

  ghost predicate NoDuplicates<T>(s: seq<T>)
  {
    forall i, j :: 0 <= i < j < |s| ==> s[i] != s[j]
  }

  /** `SELECT DISTINCT`: the first occurrence of every row, in order. */
  function Distinct(s: seq<AdminContact>): (r: seq<AdminContact>)
    ensures forall c :: c in r <==> c in s
    ensures NoDuplicates(r)
  {
    if s == [] then []
    else
      var r := Distinct(s[..|s| - 1]);
      assert s == s[..|s| - 1] + [s[|s| - 1]];
      if s[|s| - 1] in r then r else r + [s[|s| - 1]]
  }

  function AttemptJoin(attempts: seq<ContactAttempt>, admins: seq<Admin>, incidentId: int): (r: seq<AdminContact>)
    ensures forall c :: c in r <==>
      exists t, a :: t in attempts && a in admins && t.incidentId == incidentId && t.adminId == a.id && Contact(a) == c
  {
    if attempts == [] then []
    else (if attempts[0].incidentId == incidentId then ContactsWithId(admins, attempts[0].adminId) else [])
         + AttemptJoin(attempts[1..], admins, incidentId)
  }

  /** `get_notified_admins`: every admin with a contact attempt for the incident, once each. */
  function GetNotifiedAdmins(admins: seq<Admin>, attempts: seq<ContactAttempt>, incidentId: int): (r: seq<AdminContact>)
    ensures NoDuplicates(r)
    ensures forall c :: c in r <==>
      exists t, a :: t in attempts && a in admins && t.incidentId == incidentId && t.adminId == a.id && Contact(a) == c
  {
    Distinct(AttemptJoin(attempts, admins, incidentId))
  }

  /** The ping failures of the service at most `windowSeconds` old at `now`. */
  function RecentFailures(failures: seq<PingFailure>, serviceId: int, now: int, windowSeconds: int): (r: seq<PingFailure>)
    ensures |r| <= |failures|
    ensures forall f :: f in r <==> f in failures && f.serviceId == serviceId && now - f.failedAt <= windowSeconds
  {
    if failures == [] then []
    else (if failures[0].serviceId == serviceId && now - failures[0].failedAt <= windowSeconds then [failures[0]] else [])
         + RecentFailures(failures[1..], serviceId, now, windowSeconds)
  }

  /** The first registered or acknowledged incident of the service. */
  function OpenIncidentOf(incidents: seq<Incident>, serviceId: int): (r: Option<Incident>)
    ensures r.Some? ==> r.value in incidents && r.value.serviceId == serviceId && IsOpen(r.value)
    ensures r.None? <==> forall i :: i in incidents && i.serviceId == serviceId ==> !IsOpen(i)
  {
    if incidents == [] then None
    else if incidents[0].serviceId == serviceId && IsOpen(incidents[0]) then Some(incidents[0])
    else OpenIncidentOf(incidents[1..], serviceId)
  }

  /** The largest incident id in use, or 0. */
  function MaxIncidentId(incidents: seq<Incident>): (m: int)
    ensures m >= 0
    ensures forall i :: i in incidents ==> i.id <= m
  {
    if incidents == [] then 0
    else
      var rest := MaxIncidentId(incidents[1..]);
      if incidents[0].id > rest then incidents[0].id else rest
  }

  // ------------------------------------------------------ write specifications

  function ServicesExcept(services: seq<Service>, serviceId: int): (r: seq<Service>)
    ensures forall s :: s in r <==> s in services && s.id != serviceId
  {
    if services == [] then []
    else (if services[0].id != serviceId then [services[0]] else []) + ServicesExcept(services[1..], serviceId)
  }

  function LinksExcept(links: seq<ServiceAdmin>, serviceId: int): (r: seq<ServiceAdmin>)
    ensures forall l :: l in r <==> l in links && l.serviceId != serviceId
  {
    if links == [] then []
    else (if links[0].serviceId != serviceId then [links[0]] else []) + LinksExcept(links[1..], serviceId)
  }

  function IncidentsExcept(incidents: seq<Incident>, serviceId: int): (r: seq<Incident>)
    ensures forall i :: i in r <==> i in incidents && i.serviceId != serviceId
  {
    if incidents == [] then []
    else (if incidents[0].serviceId != serviceId then [incidents[0]] else []) + IncidentsExcept(incidents[1..], serviceId)
  }

  /** The contact attempts whose incident is not one of `gone`. */
  function AttemptsExcept(attempts: seq<ContactAttempt>, gone: set<int>): (r: seq<ContactAttempt>)
    ensures forall t :: t in r <==> t in attempts && t.incidentId !in gone
  {
    if attempts == [] then []
    else (if attempts[0].incidentId !in gone then [attempts[0]] else []) + AttemptsExcept(attempts[1..], gone)
  }

  /** `UPDATE service_admins SET admin_id = ? WHERE service_id = ? AND role = ?`. */
  function Reassign(links: seq<ServiceAdmin>, serviceId: int, role: Role, adminId: int): (r: seq<ServiceAdmin>)
    ensures |r| == |links|
    ensures forall k :: 0 <= k < |links| ==>
      r[k] == if links[k].serviceId == serviceId && links[k].role == role then links[k].(adminId := adminId) else links[k]
  {
    if links == [] then []
    else [if links[0].serviceId == serviceId && links[0].role == role then links[0].(adminId := adminId) else links[0]]
         + Reassign(links[1..], serviceId, role, adminId)
  }

  /** The key constraint stated on the first row and the rest. */
  lemma LinkKeysCons(x: ServiceAdmin, rest: seq<ServiceAdmin>)
    ensures LinkKeysUnique([x] + rest) <==> LinkKeysUnique(rest) && forall l :: l in rest ==> !SameLinkKey(x, l)
  {
    var s := [x] + rest;
    if LinkKeysUnique(s) {
      forall i, j | 0 <= i < j < |rest| ensures !SameLinkKey(rest[i], rest[j]) {
        assert rest[i] == s[i + 1] && rest[j] == s[j + 1];
      }
      forall l | l in rest ensures !SameLinkKey(x, l) {
        var k :| 0 <= k < |rest| && rest[k] == l;
        assert s[0] == x && s[k + 1] == l;
      }
    }
    if LinkKeysUnique(rest) && forall l :: l in rest ==> !SameLinkKey(x, l) {
      forall i, j | 0 <= i < j < |s| ensures !SameLinkKey(s[i], s[j]) {
        assert s[j] == rest[j - 1];
        if i > 0 {
          assert s[i] == rest[i - 1];
        } else {
          assert rest[j - 1] in rest;
        }
      }
    }
  }

  /** How the database tells whether a table of links keeps its primary key. */
  function LinkKeysDistinct(links: seq<ServiceAdmin>): (b: bool)
    ensures b <==> LinkKeysUnique(links)
  {
    if links == [] then true
    else
      LinkKeysCons(links[0], links[1..]);
      assert links == [links[0]] + links[1..];
      (forall l :: l in links[1..] ==> !SameLinkKey(links[0], l)) && LinkKeysDistinct(links[1..])
  }

  /** Dropping the links of a service keeps the key constraint. */
  lemma {:induction false} LinksExceptKeepsKeys(links: seq<ServiceAdmin>, serviceId: int)
    requires LinkKeysUnique(links)
    ensures LinkKeysUnique(LinksExcept(links, serviceId))
  {
    if links != [] {
      var rest := links[1..];
      assert links == [links[0]] + rest;
      LinkKeysCons(links[0], rest);
      LinksExceptKeepsKeys(rest, serviceId);
      var r := LinksExcept(rest, serviceId);
      if links[0].serviceId != serviceId {
        LinkKeysCons(links[0], r);
      } else {
        assert LinksExcept(links, serviceId) == [] + r;
      }
    }
  }

  /** The link is one the reassignment of (service, role) rewrites. */
  predicate Matches(l: ServiceAdmin, serviceId: int, role: Role)
  {
    l.serviceId == serviceId && l.role == role
  }

  /** Two links match the (service, role) pair, so both would get the same admin. */
  ghost predicate TwoMatch(links: seq<ServiceAdmin>, serviceId: int, role: Role)
  {
    exists i, j :: 0 <= i < j < |links| && Matches(links[i], serviceId, role) && Matches(links[j], serviceId, role)
  }

  /** A matched link would take the key of a link of the same service under another role. */
  ghost predicate TakesKey(links: seq<ServiceAdmin>, serviceId: int, role: Role, adminId: int)
  {
    exists i, j :: 0 <= i < |links| && 0 <= j < |links| && Matches(links[i], serviceId, role)
                   && !Matches(links[j], serviceId, role) && links[j].serviceId == serviceId && links[j].adminId == adminId
  }

  /**
   * On a table that keeps its key, a reassignment breaks the key exactly when
   * two links match the (service, role) pair, or when a matched link would
   * take the (service, admin) key of a link under another role.
   */
  lemma ReassignConflict(links: seq<ServiceAdmin>, serviceId: int, role: Role, adminId: int)
    requires LinkKeysUnique(links)
    ensures !LinkKeysUnique(Reassign(links, serviceId, role, adminId)) <==>
            TwoMatch(links, serviceId, role) || TakesKey(links, serviceId, role, adminId)
  {
    if !LinkKeysUnique(Reassign(links, serviceId, role, adminId)) {
      ConflictHasCause(links, serviceId, role, adminId);
    }
    if TwoMatch(links, serviceId, role) || TakesKey(links, serviceId, role, adminId) {
      CauseMakesConflict(links, serviceId, role, adminId);
    }
  }

  lemma ConflictHasCause(links: seq<ServiceAdmin>, serviceId: int, role: Role, adminId: int)
    requires LinkKeysUnique(links) && !LinkKeysUnique(Reassign(links, serviceId, role, adminId))
    ensures TwoMatch(links, serviceId, role) || TakesKey(links, serviceId, role, adminId)
  {
    var r := Reassign(links, serviceId, role, adminId);
    var i, j :| 0 <= i < j < |r| && SameLinkKey(r[i], r[j]);
    var mi, mj := Matches(links[i], serviceId, role), Matches(links[j], serviceId, role);
    if mi && mj {
      assert TwoMatch(links, serviceId, role);
    } else if mi {
      assert links[j].adminId == adminId;
      assert TakesKey(links, serviceId, role, adminId);
    } else if mj {
      assert links[i].adminId == adminId;
      assert TakesKey(links, serviceId, role, adminId);
    }
  }

  lemma CauseMakesConflict(links: seq<ServiceAdmin>, serviceId: int, role: Role, adminId: int)
    requires TwoMatch(links, serviceId, role) || TakesKey(links, serviceId, role, adminId)
    ensures !LinkKeysUnique(Reassign(links, serviceId, role, adminId))
  {
    var r := Reassign(links, serviceId, role, adminId);
    var i, j;
    if TwoMatch(links, serviceId, role) {
      i, j :| 0 <= i < j < |links| && Matches(links[i], serviceId, role) && Matches(links[j], serviceId, role);
    } else {
      i, j :| 0 <= i < |links| && 0 <= j < |links| && Matches(links[i], serviceId, role)
              && !Matches(links[j], serviceId, role) && links[j].serviceId == serviceId && links[j].adminId == adminId;
    }
    assert r[i] == links[i].(adminId := adminId);
    assert r[j].serviceId == serviceId && r[j].adminId == adminId;
    LinkClash(r, i, j);
  }

  /** Two different positions with one key break the key constraint. */
  lemma LinkClash(links: seq<ServiceAdmin>, i: int, j: int)
    requires 0 <= i < |links| && 0 <= j < |links| && i != j && SameLinkKey(links[i], links[j])
    ensures !LinkKeysUnique(links)
  {
    if j < i {
      assert SameLinkKey(links[j], links[i]);
    }
  }

  /** Making service 1's primary the admin who is already its secondary breaks the key. */
  lemma ReassignOntoSecondaryConflicts()
    ensures var links := [ServiceAdmin(1, 1, Primary), ServiceAdmin(1, 2, Secondary)];
            LinkKeysUnique(links) && !LinkKeysUnique(Reassign(links, 1, Primary, 2))
  {
    var links := [ServiceAdmin(1, 1, Primary), ServiceAdmin(1, 2, Secondary)];
    var r := Reassign(links, 1, Primary, 2);
    assert r[0] == ServiceAdmin(1, 2, Primary) && r[1] == ServiceAdmin(1, 2, Secondary);
  }

  /** The error the database raises when an update would repeat a link key. */
  const LINK_KEY_CONFLICT: string := "UNIQUE constraint failed: service_admins.service_id, service_admins.admin_id"

  /** Dropping the incidents of a service keeps the incident invariants. */
  lemma {:induction false} IncidentsExceptKeepsValid(incidents: seq<Incident>, serviceId: int)
    requires TablesValid(incidents)
    ensures TablesValid(IncidentsExcept(incidents, serviceId))
  {
    if incidents != [] {
      var rest := incidents[1..];
      assert incidents == [incidents[0]] + rest;
      IncidentsCons(incidents[0], rest);
      IncidentsExceptKeepsValid(rest, serviceId);
      var r := IncidentsExcept(rest, serviceId);
      if incidents[0].serviceId != serviceId {
        IncidentsCons(incidents[0], r);
      } else {
        assert IncidentsExcept(incidents, serviceId) == [] + r;
      }
    }
  }

  /** The incident invariants stated on the first row and the rest. */
  lemma IncidentsCons(x: Incident, rest: seq<Incident>)
    ensures TablesValid([x] + rest) <==>
      && TablesValid(rest) && (x.endedAt.Some? <==> x.status == Resolved)
      && forall i :: i in rest ==> i.id != x.id
  {
    var s := [x] + rest;
    if TablesValid(s) {
      forall i, j | 0 <= i < j < |rest| ensures rest[i].id != rest[j].id {
        assert rest[i] == s[i + 1] && rest[j] == s[j + 1];
      }
      forall k | 0 <= k < |rest| ensures rest[k].endedAt.Some? <==> rest[k].status == Resolved {
        assert rest[k] == s[k + 1];
      }
      forall i | i in rest ensures i.id != x.id {
        var k :| 0 <= k < |rest| && rest[k] == i;
        assert s[0] == x && s[k + 1] == i;
      }
      assert s[0] == x;
    }
    if TablesValid(rest) && (x.endedAt.Some? <==> x.status == Resolved) && forall i :: i in rest ==> i.id != x.id {
      forall i, j | 0 <= i < j < |s| ensures s[i].id != s[j].id {
        assert s[j] == rest[j - 1];
        if i > 0 {
          assert s[i] == rest[i - 1];
        } else {
          assert rest[j - 1] in rest;
        }
      }
      forall k | 0 <= k < |s| ensures s[k].endedAt.Some? <==> s[k].status == Resolved {
        if k > 0 {
          assert s[k] == rest[k - 1];
        }
      }
    }
  }

  /** `UPDATE admins SET <given fields> WHERE id = ?`. */
  function UpdateContactRows(admins: seq<Admin>, adminId: int, contactType: Option<string>,
                             contactValue: Option<string>): (r: seq<Admin>)
    ensures |r| == |admins|
    ensures forall k :: 0 <= k < |admins| ==>
      && r[k].id == admins[k].id && r[k].name == admins[k].name
      && r[k].contactType == (if admins[k].id == adminId && contactType.Some? then contactType.value else admins[k].contactType)
      && r[k].contactValue == (if admins[k].id == adminId && contactValue.Some? then contactValue.value else admins[k].contactValue)
  {
    if admins == [] then []
    else
      var a := admins[0];
      var a' := if a.id != adminId then a
                else a.(contactType := if contactType.Some? then contactType.value else a.contactType,
                        contactValue := if contactValue.Some? then contactValue.value else a.contactValue);
      [a'] + UpdateContactRows(admins[1..], adminId, contactType, contactValue)
  }

  /** Conditional status write: only open rows with the id move to resolved, stamped with `at`. */
  function ResolveRows(incidents: seq<Incident>, incidentId: int, at: int): (r: seq<Incident>)
    ensures |r| == |incidents|
    ensures forall k :: 0 <= k < |incidents| ==>
      r[k] == if incidents[k].id == incidentId && IsOpen(incidents[k])
              then incidents[k].(status := Resolved, endedAt := Some(at)) else incidents[k]
  {
    if incidents == [] then []
    else
      var i := incidents[0];
      [if i.id == incidentId && IsOpen(i) then i.(status := Resolved, endedAt := Some(at)) else i]
      + ResolveRows(incidents[1..], incidentId, at)
  }

  /** Conditional status write: only registered rows with the id move to acknowledged. */
  function AcknowledgeRows(incidents: seq<Incident>, incidentId: int): (r: seq<Incident>)
    ensures |r| == |incidents|
    ensures forall k :: 0 <= k < |incidents| ==>
      r[k] == if incidents[k].id == incidentId && incidents[k].status == Registered
              then incidents[k].(status := Acknowledged) else incidents[k]
  {
    if incidents == [] then []
    else
      var i := incidents[0];
      [if i.id == incidentId && i.status == Registered then i.(status := Acknowledged) else i]
      + AcknowledgeRows(incidents[1..], incidentId)
  }

  /** The index of the last contact attempt of this admin for this incident. */
  function LatestAttempt(attempts: seq<ContactAttempt>, incidentId: int, adminId: int): (r: Option<nat>)
    ensures r.Some? ==> r.value < |attempts| && attempts[r.value].incidentId == incidentId
                        && attempts[r.value].adminId == adminId
    ensures r.Some? ==> forall k :: r.value < k < |attempts| ==>
                          !(attempts[k].incidentId == incidentId && attempts[k].adminId == adminId)
    ensures r.None? ==> forall k :: 0 <= k < |attempts| ==>
                          !(attempts[k].incidentId == incidentId && attempts[k].adminId == adminId)
  {
    if attempts == [] then None
    else
      var n := |attempts| - 1;
      if attempts[n].incidentId == incidentId && attempts[n].adminId == adminId then Some(n)
      else LatestAttempt(attempts[..n], incidentId, adminId)
  }

  /** Marks the latest attempt of (incident, admin) as acknowledged at `at`; other rows stay. */
  function MarkLatestAttempt(attempts: seq<ContactAttempt>, incidentId: int, adminId: int, at: int): (r: seq<ContactAttempt>)
    ensures |r| == |attempts|
    ensures forall k :: 0 <= k < |attempts| && Some(k) != LatestAttempt(attempts, incidentId, adminId) ==> r[k] == attempts[k]
    ensures LatestAttempt(attempts, incidentId, adminId).Some? ==>
      var k := LatestAttempt(attempts, incidentId, adminId).value;
      r[k] == attempts[k].(result := Some(Acked), responseAt := Some(at))
  {
    match LatestAttempt(attempts, incidentId, adminId)
    case None => attempts
    case Some(k) => attempts[k := attempts[k].(result := Some(Acked), responseAt := Some(at))]
  }

  // ---------------------------------------------------------- acknowledgment

  /** What decoding the presented token produced (signature and expiry are checked outside the model). */
  datatype TokenCheck = Decoded(incidentId: int, adminId: int) | InvalidToken | ExpiredToken

  /** Replies of the acknowledgment endpoint. */
  datatype AckReply =
    | AckDone              // "acknowledged"
    | AlreadyAcknowledged  // "already acknowledged"
    | AlreadyResolved      // "already resolved"
    | RejectedInvalid      // 400 "Invalid token"
    | RejectedExpired
    | IncidentNotFound

  /** The reply to a redemption, from the incident's status before it. */
  function AckOutcome(incidents: seq<Incident>, token: TokenCheck): (r: AckReply)
    ensures token.InvalidToken? <==> r == RejectedInvalid
    ensures token.ExpiredToken? <==> r == RejectedExpired
    ensures r == AckDone <==> token.Decoded? && GetIncident(incidents, token.incidentId).Some?
                              && GetIncident(incidents, token.incidentId).value.status == Registered
    ensures r == AlreadyAcknowledged <==> token.Decoded? && GetIncident(incidents, token.incidentId).Some?
                                          && GetIncident(incidents, token.incidentId).value.status == Acknowledged
    ensures r == AlreadyResolved <==> token.Decoded? && GetIncident(incidents, token.incidentId).Some?
                                      && GetIncident(incidents, token.incidentId).value.status == Resolved
    ensures r == IncidentNotFound <==> token.Decoded? && GetIncident(incidents, token.incidentId).None?
  {
    match token
    case InvalidToken => RejectedInvalid
    case ExpiredToken => RejectedExpired
    case Decoded(incidentId, _) =>
      match GetIncident(incidents, incidentId)
      case None => IncidentNotFound
      case Some(i) =>
        match i.status
        case Resolved => AlreadyResolved
        case Acknowledged => AlreadyAcknowledged
        case Registered => AckDone
  }

  lemma {:induction false} GetIncidentAfterAck(incidents: seq<Incident>, incidentId: int)
    requires GetIncident(incidents, incidentId).Some? && GetIncident(incidents, incidentId).value.status == Registered
    ensures GetIncident(AcknowledgeRows(incidents, incidentId), incidentId)
         == Some(GetIncident(incidents, incidentId).value.(status := Acknowledged))
  {
    var r := AcknowledgeRows(incidents, incidentId);
    assert r[0] == if incidents[0].id == incidentId && incidents[0].status == Registered
                   then incidents[0].(status := Acknowledged) else incidents[0];
    if incidents[0].id != incidentId {
      assert r[1..] == AcknowledgeRows(incidents[1..], incidentId);
      GetIncidentAfterAck(incidents[1..], incidentId);
    }
  }

  /** Redeeming the same token again after a successful redemption answers "already acknowledged". */
  lemma AckIdempotent(incidents: seq<Incident>, token: TokenCheck)
    requires AckOutcome(incidents, token) == AckDone
    ensures AckOutcome(AcknowledgeRows(incidents, token.incidentId), token) == AlreadyAcknowledged
  {
    GetIncidentAfterAck(incidents, token.incidentId);
  }

  /** The store invariants: incident ids are a key, and end times go with resolution. */
  ghost predicate TablesValid(incidents: seq<Incident>)
  {
    IncidentIdsUnique(incidents) && EndedIffResolved(incidents)
  }

  /** Every status change a write makes is a forward step of the lifecycle. */
  ghost predicate Advances(before: seq<Incident>, after: seq<Incident>)
  {
    |before| <= |after| &&
    forall k :: 0 <= k < |before| ==>
      after[k].id == before[k].id && after[k].serviceId == before[k].serviceId
      && StatusStep(before[k].status, after[k].status)
  }

  lemma CreateKeepsValid(incidents: seq<Incident>, serviceId: int, at: int)
    requires TablesValid(incidents)
    ensures var i := NewIncident(MaxIncidentId(incidents) + 1, serviceId, at);
            TablesValid(incidents + [i]) && Advances(incidents, incidents + [i])
            && forall j :: j in incidents ==> j.id != i.id
  {
  }

  lemma TransitionsKeepValid(incidents: seq<Incident>, incidentId: int, at: int)
    requires TablesValid(incidents)
    ensures TablesValid(ResolveRows(incidents, incidentId, at)) && Advances(incidents, ResolveRows(incidents, incidentId, at))
    ensures TablesValid(AcknowledgeRows(incidents, incidentId)) && Advances(incidents, AcknowledgeRows(incidents, incidentId))
  {
  }

  // ------------------------------------------------------------------ writes

  class Database {
    var services: seq<Service>
    var admins: seq<Admin>
    var serviceAdmins: seq<ServiceAdmin>
    var incidents: seq<Incident>
    var contactAttempts: seq<ContactAttempt>
    var pingFailures: seq<PingFailure>

    /** The invariants the schema enforces: unique incident ids with end times on resolved rows, and the link key. */
    ghost predicate Valid()
      reads this`incidents, this`serviceAdmins
    {
      TablesValid(incidents) && LinkKeysUnique(serviceAdmins)
    }

    constructor (services: seq<Service>, admins: seq<Admin>, serviceAdmins: seq<ServiceAdmin>,
                 incidents: seq<Incident>, contactAttempts: seq<ContactAttempt>, pingFailures: seq<PingFailure>)
      requires TablesValid(incidents) && LinkKeysUnique(serviceAdmins)
      ensures Valid()
      ensures this.services == services && this.admins == admins && this.serviceAdmins == serviceAdmins
      ensures this.incidents == incidents && this.contactAttempts == contactAttempts
      ensures this.pingFailures == pingFailures
    {
      this.services := services;
      this.admins := admins;
      this.serviceAdmins := serviceAdmins;
      this.incidents := incidents;
      this.contactAttempts := contactAttempts;
      this.pingFailures := pingFailures;
    }

    /** `insert_contact_attempt`: one new row, no response yet. */
    method InsertContactAttempt(incidentId: int, adminId: int, channel: string, result: AttemptResult, attemptedAt: int)
      modifies this`contactAttempts
      ensures contactAttempts == old(contactAttempts)
                + [ContactAttempt(incidentId, adminId, attemptedAt, channel, Some(result), None)]
    {
      contactAttempts := contactAttempts + [ContactAttempt(incidentId, adminId, attemptedAt, channel, Some(result), None)];
    }

    /** `delete_service`: removes the service and its role links, reporting whether it existed. */
    method DeleteService(serviceId: int) returns (deleted: bool)
      requires Valid()
      modifies this`services, this`serviceAdmins
      ensures Valid()
      ensures deleted <==> exists s :: s in old(services) && s.id == serviceId
      ensures deleted ==> services == ServicesExcept(old(services), serviceId)
                          && serviceAdmins == LinksExcept(old(serviceAdmins), serviceId)
      ensures !deleted ==> services == old(services) && serviceAdmins == old(serviceAdmins)
    {
      deleted := exists s :: s in services && s.id == serviceId;
      if deleted {
        LinksExceptKeepsKeys(serviceAdmins, serviceId);
        services := ServicesExcept(services, serviceId);
        serviceAdmins := LinksExcept(serviceAdmins, serviceId);
      }
    }

    /** The ORM delete of a service: its links, its incidents and their contact attempts go with it. */
    method DeleteServiceCascade(serviceId: int)
      requires Valid()
      modifies this`services, this`serviceAdmins, this`incidents, this`contactAttempts
      ensures Valid()
      ensures services == ServicesExcept(old(services), serviceId)
      ensures serviceAdmins == LinksExcept(old(serviceAdmins), serviceId)
      ensures incidents == IncidentsExcept(old(incidents), serviceId)
      ensures contactAttempts == AttemptsExcept(old(contactAttempts), IncidentIdsOf(old(incidents), serviceId))
    {
      LinksExceptKeepsKeys(serviceAdmins, serviceId);
      IncidentsExceptKeepsValid(incidents, serviceId);
      contactAttempts := AttemptsExcept(contactAttempts, IncidentIdsOf(incidents, serviceId));
      incidents := IncidentsExcept(incidents, serviceId);
      serviceAdmins := LinksExcept(serviceAdmins, serviceId);
      services := ServicesExcept(services, serviceId);
    }

    /**
     * `update_service_admin`: reassigns every (service, role) link, reporting
     * whether any matched. When the new rows would repeat a (service, admin)
     * key the database rejects the statement and the table is left as it was.
     */
    method UpdateServiceAdmin(serviceId: int, adminId: int, role: Role) returns (r: Result<bool, string>)
      requires Valid()
      modifies this`serviceAdmins
      ensures Valid()
      ensures r.Failure? <==> !LinkKeysUnique(Reassign(old(serviceAdmins), serviceId, role, adminId))
      ensures r.Failure? ==> r.error == LINK_KEY_CONFLICT && serviceAdmins == old(serviceAdmins)
      ensures r.Success? ==> serviceAdmins == Reassign(old(serviceAdmins), serviceId, role, adminId)
      ensures r.Success? ==> (r.value <==> exists l :: l in old(serviceAdmins) && l.serviceId == serviceId && l.role == role)
    {
      var next := Reassign(serviceAdmins, serviceId, role, adminId);
      if !LinkKeysDistinct(next) {
        return Failure(LINK_KEY_CONFLICT);
      }
      var updated := exists l :: l in serviceAdmins && l.serviceId == serviceId && l.role == role;
      serviceAdmins := next;
      r := Success(updated);
    }

    /**
     * `update_admin_contact`: with neither field given nothing is touched and
     * the answer is false; otherwise the given fields of the admin are
     * replaced and the answer is whether the admin exists.
     */
    method UpdateAdminContact(adminId: int, contactType: Option<string>, contactValue: Option<string>)
      returns (updated: bool)
      modifies this`admins
      ensures contactType.None? && contactValue.None? ==> !updated && admins == old(admins)
      ensures contactType.Some? || contactValue.Some? ==>
                admins == UpdateContactRows(old(admins), adminId, contactType, contactValue)
                && (updated <==> exists a :: a in old(admins) && a.id == adminId)
    {
      if contactType.None? && contactValue.None? {
        return false;
      }
      updated := exists a :: a in admins && a.id == adminId;
      admins := UpdateContactRows(admins, adminId, contactType, contactValue);
    }

    /** Stores one probe failure of the service. */
    method RecordPingFailure(serviceId: int, at: int)
      modifies this`pingFailures
      ensures pingFailures == old(pingFailures) + [PingFailure(serviceId, at)]
    {
      pingFailures := pingFailures + [PingFailure(serviceId, at)];
    }

    /** Opens a registered incident for the service under a fresh id. */
    method CreateIncident(serviceId: int, at: int) returns (inc: Incident)
      requires Valid()
      modifies this`incidents
      ensures Valid() && Advances(old(incidents), incidents)
      ensures inc == NewIncident(MaxIncidentId(old(incidents)) + 1, serviceId, at)
      ensures forall j :: j in old(incidents) ==> j.id != inc.id
      ensures incidents == old(incidents) + [inc]
    {
      inc := NewIncident(MaxIncidentId(incidents) + 1, serviceId, at);
      CreateKeepsValid(incidents, serviceId, at);
      incidents := incidents + [inc];
    }

    /** Closes the incident if it is open, with end time `at`. */
    method ResolveIncident(incidentId: int, at: int)
      requires Valid()
      modifies this`incidents
      ensures Valid() && Advances(old(incidents), incidents)
      ensures incidents == ResolveRows(old(incidents), incidentId, at)
    {
      TransitionsKeepValid(incidents, incidentId, at);
      incidents := ResolveRows(incidents, incidentId, at);
    }

    /**
     * Redeems an acknowledgment token: on success the incident becomes
     * acknowledged and the admin's latest contact attempt records the
     * response; every other reply changes nothing.
     */
    method Acknowledge(token: TokenCheck, now: int) returns (reply: AckReply)
      requires Valid()
      modifies this`incidents, this`contactAttempts
      ensures Valid() && Advances(old(incidents), incidents)
      ensures reply == AckOutcome(old(incidents), token)
      ensures reply == AckDone ==> incidents == AcknowledgeRows(old(incidents), token.incidentId)
                                   && contactAttempts == MarkLatestAttempt(old(contactAttempts), token.incidentId, token.adminId, now)
      ensures reply != AckDone ==> incidents == old(incidents) && contactAttempts == old(contactAttempts)
    {
      reply := AckOutcome(incidents, token);
      if reply == AckDone {
        TransitionsKeepValid(incidents, token.incidentId, now);
        incidents := AcknowledgeRows(incidents, token.incidentId);
        contactAttempts := MarkLatestAttempt(contactAttempts, token.incidentId, token.adminId, now);
      }
    }
  }

  /** The ids of the service's incidents. */
  function IncidentIdsOf(incidents: seq<Incident>, serviceId: int): (r: set<int>)
    ensures forall id :: id in r <==> exists i :: i in incidents && i.serviceId == serviceId && i.id == id
  {
    set i | i in incidents && i.serviceId == serviceId :: i.id
  }
}

=== FILE: wrappers.dfy ===
/** Optional values and results with an error, used throughout the model. */
module Wrappers {

  /** A value that may be absent (Python's `None`). */
  datatype Option<+T> = None | Some(value: T)

  /** A computation that either returns a value or raises an error. */
  datatype Result<+T, +E> = Success(value: T) | Failure(error: E)

  /** A check that either passes or raises an error, returning nothing on success. */
  datatype Outcome<+E> = Pass | Fail(error: E)
}
